=== FILE: README.md ===
# Contact obfuscation of a static personal site, in Dafny

The site keeps its e-mail address, phone number and QQ number out of the
HTML. Each one is stored Base64-encoded in a `data-*` attribute, and the page
shows a masked text such as `147****6356` in its place. Browser scripts handle
the rest:

- **Reveal.** On a click, the script decodes the value into the element for
  twenty seconds and adds a copy button.
- **E-mail protection.** E-mail addresses are rewritten as HTML numeric
  character references.
- **Bot gate.** A user-agent check decides between two routines. For a
  crawler it hides the elements matching `.contact-item`, `.contact-info`,
  `.email`, `.phone`, `#email-display` and `#phone-display`; for anyone else
  it applies the e-mail and phone protection.
- **Click tracking.** A sliding ten-second window of click timestamps warns
  about abnormal click rates.
- **Mobile menu.** The page's menu toggle keeps a button class and a panel
  class in step.

This project models that logic as pure functions and small immutable state
machines, and proves what the scripts promise.

| file | module | what it models |
|---|---|---|
| `results.dfy` | `Results` | `Option` and `Result` wrappers |
| `decimal.dfy` | `Decimal` | decimal rendering of a character code (the `+` in `'&#' + code + ';'`) and its parse |
| `base64.dfy` | `Base64` | the RFC 4648 section 4 alphabet; the `atob` decoder (the forgiving-base64 algorithm of the WHATWG Infra standard); a reference encoder, standard and URL-safe (RFC 4648 section 5) |
| `codec.dfy` | `ContactCodec` | `decodeContact` (URL-safe mapping, `=` padding, decode, the single error); `encodeEmail` and its inverse |
| `reveal.dfy` | `RevealController` | the per-element click handler and hide timer of `initializeContactHandlers` |
| `botgate.dfy` | `BotGate` | `isBotUserAgent` and the two-way dispatch of `initContactProtection` |
| `clicktracking.dfy` | `ClickTracking` | the click-rate window of `initClickTracking` |
| `mobilemenu.dfy` | `MobileMenu` | the menu toggle, outside-click and anchor handlers |
| `emailprotection.dfy` | `EmailProtection` | `protectEmailAddresses` and the form action of `createFormspreeForm` |
| `verificationid.dfy` | `VerificationId` | `generateVerificationId` with its random draws as a parameter |

Modelling conventions:

- **Strings.** Strings are `seq<char>`, and a character's code is `c as int`.
- **Attributes.** A missing `data-*` attribute and an empty one are both
  falsy in the scripts, and both are modelled as `""`.
- **Wall time.** The clock is not modelled. The click window takes each
  click's `Date.now()` reading as a parameter.
- **Timers.** Hide timers are abstract ids. `setTimeout` hands out the next
  id, `clearTimeout` removes an id from the pending set, and only a pending
  timer fires.
- **Randomness.** `Math.random`'s results are a parameter: a sequence of
  reals in [0, 1). `Math.floor(x * 62)` is taken on the exact product.
  JavaScript rounds the double product first, so a few draws just below
  k/62 pick position k rather than k - 1: the double
  `0x1.2108421084210p-1` lies below 35/62 and picks 35 in JavaScript and 34
  here. The proved properties hold for either choice of position.
- **Duplicate copies.** `encodeEmail` and `decodeContact` appear both as
  static methods in script.js and as methods in security.js. The two copies
  have the same text, so one Dafny function models both. The table cites
  the security.js copy on the rows of the two loops.

## Model

| member | source | states |
|---|---|---|
| Decimal.Show | script.js:177 | the decimal rendering of a code is non-empty, all digits, without a leading zero |
| Decimal.ValueShow | script.js:177 | reading the digits back gives the number: the rendering is lossless |
| Decimal.DigitPrefixStops | script.js:177 | a rendered number followed by `;` is delimited exactly by the `;` |
| Base64.StripWhitespace | script.js:151 | `atob` ignores ASCII whitespace: the result has only non-whitespace characters of the input, keeps every non-whitespace character, and leaves whitespace-free input as it is |
| Base64.StripWhitespaceOne | script.js:151 | a single whitespace character vanishes, any other single character stays |
| Base64.StripWhitespaceAppend | script.js:151 | stripping a concatenation concatenates the stripped parts, so the kept characters stay in input order |
| Base64.DropPadding | script.js:151 | `atob` touches only a length divisible by four; it then removes the trailing `=`, two when the input ends in `==`, one when it ends in a single `=`, none otherwise, and nothing else |
| Base64.ForgivingDecode | script.js:151 | `atob` succeeds exactly when the whitespace-free, unpadded input has no length ≡ 1 (mod 4) and uses only the 64-character alphabet |
| Base64.DecodeEncodeUnpadded | script.js:151 | decoding the unpadded RFC 4648 encoding of any bytes gives back exactly those bytes |
| Base64.ForgivingDecodeEncode | script.js:151 | `atob` of the padded RFC 4648 encoding of any bytes returns those bytes |
| Base64.ValueOfCharOf | script.js:151 | the alphabet is a bijection onto the 6-bit values (one direction) |
| Base64.CharOfValueOf | script.js:151 | the alphabet is a bijection onto the 6-bit values (other direction) |
| ContactCodec.ToStandardAlphabet | script.js:142 | afterwards no `-` or `_` remains; `-` became `+`, `_` became `/`, every other character is unchanged |
| ContactCodec.PadToFour | script.js:144-146 | appends fewer than four characters, all `=`, to reach a length divisible by 4; the input is a prefix of the result |
| ContactCodec.PadLoop | security.js:221-225 | the `while (length % 4) += '='` loop (of the security.js copy, identical to script.js:142-146) computes that padding |
| ContactCodec.Normalize | script.js:142-146 | the normalised string has no `-`/`_`, a length divisible by 4, starts with the mapped input and ends in fewer than four `=` |
| ContactCodec.DecodeContact | script.js:139-160 | fails exactly when the normalised text is not valid for `atob`; every failure carries the one error `联系方式解码失败`; a success has only characters below 256 |
| ContactCodec.DecodeContactStandard | script.js:139-155 | the standard padded Base64 of any bytes decodes to those bytes, one character per byte |
| ContactCodec.DecodeContactStandardUnpadded | script.js:142-151 | the standard Base64 of any bytes with its `=` padding left off decodes to those bytes |
| ContactCodec.DecodeContactUrlUnpadded | script.js:142-151 | the unpadded URL-safe Base64 of any bytes decodes to those bytes |
| ContactCodec.DecodeContactUrlPadded | script.js:142-151 | the padded URL-safe Base64 of any bytes decodes to those bytes |
| ContactCodec.DecodeContactForeignChar | script.js:149-159 | any character outside the alphabet, `-`, `_`, `=` and whitespace makes decoding fail with the single error |
| ContactCodec.DecodeContactLoneChar | script.js:144-159 | a whitespace-free input of length ≡ 1 (mod 4) fails with the single error, even though padding was appended |
| ContactCodec.PhoneExample | script.js:139-151 | `MTQ3MTExMTYzNTY=` decodes to `14711116356` |
| ContactCodec.CharRef | script.js:172-178 | each character becomes `&#`, decimal digits, `;` |
| ContactCodec.CharRefUniform | script.js:172-178 | the special cases for `@` and `.` agree with the general `&#code;` rule |
| ContactCodec.EncodeEmail | script.js:167-181 | output uses only `&`, `#`, `;` and digits, never `@` or `.`; at least four characters per input character; empty exactly for empty input |
| ContactCodec.EncodeEmailAppend | script.js:169-179 | the encoding works character by character, in order: encoding a concatenation concatenates the encodings |
| ContactCodec.EncodeEmailLoop | security.js:201-215 | the accumulating `for` loop (of the security.js copy, identical to script.js:167-181) computes the encoding |
| ContactCodec.ParseEncodeEmail | script.js:169-179 | parsing the numeric character references of the output gives back exactly the input |
| ContactCodec.EncodeEmailInjective | script.js:167-181 | distinct addresses never encode to the same string |
| RevealController.Resolve | script.js:244-281 | the payload is the first non-empty of `data-email`, `data-phone`, `data-qq`; a value is revealed exactly when that payload decodes, and it is that decode, flagged as e-mail exactly for `data-email`; a failure is exactly a payload that does not decode and carries that attribute's alert; `data-wechat` matters only when the other three are empty |
| RevealController.EmailTakesPrecedence | script.js:246-259 | with `data-email` present, phone, QQ and WeChat attributes never change the outcome |
| RevealController.PhoneBeforeQq | script.js:260-268 | without `data-email`, a present `data-phone` decides regardless of QQ and WeChat |
| RevealController.QqBeforeWechat | script.js:269-281 | with only QQ and WeChat left, a present `data-qq` decides regardless of WeChat |
| RevealController.Init | script.js:229-237 | an element starts showing its captured text, with no timer and no copy button |
| RevealController.Schedule | script.js:310 | `setTimeout` changes only the timer bookkeeping (text, copy button and mailto untouched); the id it stores in `timeoutId` is pending and, when all earlier ids are below the counter, fresh, and the counter bound is kept |
| RevealController.Click | script.js:239-313 | an alert is raised exactly on a decode failure; the text becomes the decoded value when one decodes and is untouched otherwise; a new hide timer is scheduled exactly when the handler runs to its end; the earlier timer is cleared |
| RevealController.Fire | script.js:310-327 | a pending hide timer restores the captured text and removes the copy button; a cleared or spent timer does nothing |
| RevealController.InitValid | script.js:229-237 | a freshly initialised element satisfies the reveal invariant |
| RevealController.ClickValid | script.js:239-313 | a click preserves the invariant: at most the `timeoutId` timer is pending, the text is the mask or the decoded value, the copy button and mailto action exist only while the value shows with its timer pending |
| RevealController.FireValid | script.js:310-327 | a timer firing preserves the invariant |
| RevealController.AtMostOneTimer | script.js:241-312 | a valid element never has two pending hide timers |
| RevealController.ClickReveals | script.js:241-312 | a click whose payload decodes shows the value, leaves exactly one pending timer, adds the copy button exactly for a non-empty value, installs the `mailto:` action for an e-mail, raises no alert, and that timer restores the captured text |
| RevealController.ClickStops | script.js:241-281 | a click whose decode fails, or that finds only `data-wechat`, keeps text and copy button, schedules nothing, has cleared the earlier timer, and alerts exactly on a decode failure |
| RevealController.ReclickRestartsTimer | script.js:241-312 | re-clicking a revealed element keeps the value on screen, and the replaced timer can no longer hide it |
| RevealController.RunValid | script.js:239-327 | after any sequence of clicks and timer firings there is at most one pending timer and the text is the mask or the decoded value |
| RevealController.PhoneRevealExample | script.js:239-312 | the element masked `147****6356` over `MTQ3MTExMTYzNTY=` shows `14711116356` with a copy button, and its timer restores the mask |
| BotGate.ToLower | security.js:102 | the result has the input's length and no ASCII capital; every character that is not a capital is kept, and each capital becomes the small letter that upper-cases back to it |
| BotGate.Includes | security.js:110 | `includes` is true exactly when the keyword occurs at some position |
| BotGate.SomeIncluded | security.js:110 | `some` is true exactly when some keyword of the list occurs |
| BotGate.IsBotUserAgent | security.js:101-111 | a user agent is a bot exactly when its lower-cased text contains one of the 21 keywords |
| BotGate.CaseInsensitive | security.js:101-111 | the verdict does not change when the user agent is upper- or lower-cased |
| BotGate.ContainsTransitive | security.js:110 | an occurrence of an occurrence is an occurrence |
| BotGate.BotInAnyCase | security.js:103-110 | any user agent containing `bot` or `googlebot` in any letter case is a bot |
| BotGate.CoreKeywordsSuffice | security.js:103-110 | the keyword list is equivalent to its ten keywords that contain no other keyword |
| BotGate.KeyLetterInEveryKeyword | security.js:103-108 | every keyword contains one of the letters b, c, p, u, y |
| BotGate.NoKeyLetterIsNotBot | security.js:101-111 | a user agent without any of b, c, p, u, y (either case) is never a bot |
| BotGate.InitContactProtection | security.js:86-98 | exactly one branch runs: a bot gets only the hiding routine, anyone else gets e-mail then phone protection |
| BotGate.BotNeverProtected | security.js:86-98 | a user agent containing `Googlebot` in any casing gets only the hiding routine |
| ClickTracking.KeepRecent | security.js:57 | the filter keeps no more than it is given, only timestamps less than 10000 ms old, and exactly the recent members of the input |
| ClickTracking.FilterWindow | security.js:57-59 | the filter-then-refill of the array yields the filtered list |
| ClickTracking.OnClick | security.js:51-66 | a click counts one more, always retains its own timestamp last, retains exactly the recent ones among old timestamps and `now`, and warns exactly when more than 30 remain |
| ClickTracking.KeepRecentAppend | security.js:57 | the filter distributes over concatenation, so it keeps the in-order subsequence of recent timestamps |
| ClickTracking.OnClickAppends | security.js:52-59 | after a click the window is the old window re-filtered, followed by `now` |
| ClickTracking.KeepRecentIdempotent | security.js:57 | filtering again at the same instant changes nothing |
| ClickTracking.KeepRecentSuffix | security.js:57 | with timestamps in clock order the window is a suffix of the list |
| ClickTracking.KeepRecentNone | security.js:57 | when nothing is recent the window is empty |
| ClickTracking.OnClickWindow | security.js:51-59 | a click at a reading no earlier than the retained ones keeps them sorted and within (now - 10000, now] |
| ClickTracking.RunWindow | security.js:51-66 | over any run with a clock that never goes back, the counter counts every click that reaches the document handler and the window stays sorted within (now - 10000, now] |
| ClickTracking.InitialRunWindow | security.js:44-66 | from page load (no clicks, empty list) under a clock that never goes back, the counter equals the number of clicks that reached the document handler and the window is sorted within (now - 10000, now] |
| MobileMenu.ToggleClick | script.js:33-36 | the toggle flips both classes, so it keeps them in step exactly when they were |
| MobileMenu.DocumentClick | script.js:39-46 | a click outside toggle and menu leaves the menu hidden, a click inside changes nothing, and the classes stay in step |
| MobileMenu.AnchorClick | script.js:51-72 | an anchor with an existing target leaves the menu hidden, one without changes nothing, and the classes stay in step |
| MobileMenu.Click | script.js:33-74 | a click runs the target's handlers and then, unless the target stopped it, the document handler: a copy-button click changes nothing, a plain click elsewhere leaves the menu hidden, and the classes stay in step |
| MobileMenu.RunConsistent | script.js:32-74 | every click sequence from a consistent state stays consistent |
| MobileMenu.InitialRunConsistent | script.js:32-74 | from the assumed starting state (menu `hidden`, toggle not `active`), the toggle is `active` exactly when the menu is not `hidden`, after any clicks |
| MobileMenu.ToggleTwice | script.js:33-36 | two toggle clicks restore the state |
| MobileMenu.OutsideCloses | script.js:39-46 | a plain click outside that reaches the document handler closes the menu and deactivates the toggle |
| MobileMenu.StoppedKeepsOpen | script.js:289-290 | a click on a copy button, whose handler stops propagation, leaves an open menu open |
| EmailProtection.Address | security.js:128-149 | a present `data-email` decides alone: the address is its decode, and there is none when it does not decode; otherwise the address is `part1@part2`, present exactly when both parts are non-empty |
| EmailProtection.ProtectEmail | security.js:126-151 | an element without a usable address is untouched; otherwise the string it assigns to `innerHTML` has no `@` or `.` and its `href` is `mailto:` plus the address |
| EmailProtection.ProtectEmailAgrees | security.js:132-148 | after the rewrite, the character references spell exactly the address the `href` targets |
| EmailProtection.EncodedEmailTakesPrecedence | security.js:128-139 | with `data-email` present, the part attributes never matter |
| EmailProtection.PartsJoined | security.js:141-149 | without `data-email`, two non-empty parts show `part1@part2` as references and link to `mailto:part1@part2` |
| EmailProtection.PrefixBefore | security.js:253 | the text before the first `c` (`split('@')[0]` for `@`, the end of a quoted attribute for `"`) is a prefix without `c`, ending at the first `c` or at the end |
| EmailProtection.PrefixBeforeUnique | security.js:253 | those properties determine that prefix |
| EmailProtection.PrefixBeforeSkip | security.js:253 | a head without `c` is kept whole, and the search continues after it |
| EmailProtection.LocalPartOfAddress | security.js:253 | the local part of `name@domain` is `name` |
| EmailProtection.ActionText | security.js:253 | the text spliced into `action="…"` is the endpoint followed by the local part of the decoded address |
| EmailProtection.CreateFormspreeForm | security.js:242-275 | no container means no change; otherwise the failure message appears exactly when decoding fails; a form carries the spliced text, and its `action` attribute is that text up to its first `"`, so it always starts with the endpoint |
| EmailProtection.FormspreeActionOfAddress | security.js:248-253 | an address `name@domain` encoded in Base64 splices the endpoint and `name`, and the form's `action` attribute text is the endpoint followed by `name` up to its first `"` |
| EmailProtection.QuoteCutsName | security.js:252-253 | a local part `head"tail` has its attribute text end after `head` |
| EmailProtection.QuoteEndsAction | security.js:252-253 | an address `head"tail@domain` splices the whole local part but gives a form whose `action` attribute text is the endpoint followed by `head` alone |
| VerificationId.CharsAreAlphanumeric | security.js:77 | the alphabet has 62 characters, exactly the ASCII letters and digits |
| VerificationId.Pick | security.js:80 | `Math.floor(Math.random() * 62)` is a position in the alphabet |
| VerificationId.VerificationIdOf | security.js:75-83 | the identifier has 32 characters, all ASCII letters or digits, the i-th picked by the i-th draw |
| VerificationId.GenerateVerificationId | security.js:78-82 | the appending loop builds that identifier |
| VerificationId.IdsAreExactlyAlphanumeric | security.js:75-83 | a string is the identifier of some draws exactly when it has 32 characters, all letters and digits |
| VerificationId.EveryIdReachable | security.js:75-83 | every 32-character alphanumeric string is the identifier of some draws |

## Left out

- The bot gate does not protect the reveal handlers. `hideContactInformation`
  (commented 隐藏所有联系方式, "hide all contact details") suggests that a
  crawler should not see the contacts. In the code, however, script.js
  installs `initializeContactHandlers` on `DOMContentLoaded`
  whatever `isBotUserAgent` says. So a client that clicks still gets the
  decoded value. The model follows the code: `RevealController` has no bot
  input.
- The Node `Buffer` branch of `decodeContact` is not modelled. Browsers have
  `atob`. The `Buffer` branch decodes UTF-8 instead of mapping one byte to
  one character, and it never throws.
- Base64.ForgivingDecode: models the `atob` of the WHATWG forgiving-base64
  algorithm and nothing more. Non-zero leftover pad bits are discarded
  rather than rejected, as that algorithm requires.
- BotGate.ToLower: lower-cases ASCII letters only. `toLowerCase` also folds
  non-ASCII letters, and two of those fold into ASCII: U+212A (Kelvin sign)
  becomes `k`, and U+0130 becomes `i` followed by U+0307. The verdict is
  unaffected. The only keyword with a `k` is `duckduckbot`, which contains
  the keyword `bot`. Every `i` in a keyword is followed by an ASCII letter,
  never by U+0307, and no keyword ends in `i`.
- ContactCodec.CharRef: uses the character's code as a single integer. The
  UTF-16 surrogate halves that `charCodeAt` returns for astral characters
  are not distinguished.
- ContactCodec.ParseEncodeEmail: proves the round trip against an idealised
  reader of `&#NN;` references (`ParseCharRefs`), not against an HTML
  parser. An HTML parser turns `&#0;` into U+FFFD and maps most codes from
  128 to 159 through the Windows-1252 table. The one-character-per-byte
  output of `decodeContact` contains exactly such codes when the address
  was UTF-8, and the page then shows different text.
- EmailProtection.ProtectEmailAgrees: states the `innerHTML` string/`href` agreement
  under the same idealised reader, so the caveat on
  ContactCodec.ParseEncodeEmail applies to it as well.
- EmailProtection.CreateFormspreeForm: the `action` is the spliced text cut
  at its first `"`, as the HTML parser ends the attribute there. The parser
  then also decodes character references in the value (`a&amp;b` posts to
  `…/f/a&b`), which is not modelled, so the `action` equals the form's
  attribute only for local parts without `&`. The markup after the `"` is
  not modelled either.
- EmailProtection.FormspreeActionOfAddress: states the `action` attribute
  text, not where the form is submitted. Submission parses that text as a
  URL: dot segments are resolved (a local part `x/../y` goes to
  `https://formspree.io/f/y`), tabs and newlines are removed, and spaces and
  non-ASCII characters are percent-encoded. URL parsing is not modelled, nor
  is the decoding of character references noted for
  EmailProtection.CreateFormspreeForm.
- EmailProtection.QuoteEndsAction: likewise states the `action` attribute
  text after the `"` cut, not the submission URL that URL parsing makes of it.
- MobileMenu.OutsideCloses: holds for clicks that reach the document
  handler. A click on a revealed contact's copy button calls
  `stopPropagation`, so an open menu stays open; `MobileMenu.Stopped` models
  that target and MobileMenu.StoppedKeepsOpen states it.
- ClickTracking.RunWindow: the run lists the clicks that reach the document
  handler. Clicks on a copy button stop propagation and are never counted,
  so the counter is the number of those clicks, not of every click on the
  page.
- MobileMenu.Initial: the starting state (menu `hidden`, toggle not
  `active`) is an assumption about the page's markup. The scripts never
  establish it.
- `copyToClipboard` is not modelled. It relies on asynchronous browser APIs
  (`navigator.clipboard`, `execCommand`), and the copy button is modelled
  only as present or absent.
- The scroll effects are not modelled: the navbar class swap, the fade-in,
  the back-to-top button, and the anchor handler's scroll target (the
  target's offset less the navbar height and 20 pixels). They are one-line
  reactions to layout values.
- DOM construction is not modelled: the WeChat QR modal, the phone SVG
  replacement in `protectPhoneNumbers`, the CSP and `nosniff` meta tags, and
  `display:none` in `hideContactInformation`. `BotGate.InitContactProtection`
  names these routines without performing them.
- `mailto:` navigation and form submission are not modelled. The model keeps
  the `onclick` action and the `href`/`action` text and does not navigate.
- Wall time is not modelled. `Date.now` and the 20-second delay are not
  modelled as time; see the conventions above.
- An anchor whose `href` is just `#` makes `document.querySelector` throw.
  The handler then stops before closing the menu, which `MobileMenu`
  models as a missing target (`targetExists` false).
- The anchor handler closes the menu whenever the menu exists, even on a
  page without a toggle. `MobileMenu` covers only pages that have both
  elements, since the other handlers exist only there.
- images/script.js is not part of this model. It is an unguarded duplicate
  of the navbar, menu, anchor and fade code.
- The `console` messages are not modelled, and neither is the
  `encodedHtml` that `createFormspreeForm` computes but never uses.

=== FILE: base64.dfy ===
/**
 * Base64 as the browser's `atob` reads it: the alphabet of section 4 of
 * RFC 4648 ("A"-"Z", "a"-"z", "0"-"9", "+", "/"), '=' padding, and the
 * forgiving decoder of the WHATWG Infra standard (ASCII whitespace ignored,
 * padding optional, leftover bits of a final partial group discarded).
 */
module Base64 {
  import opened Results

  type Byte = b: int | 0 <= b < 256
  type Sextet = s: int | 0 <= s < 64

  predicate IsAlphabetChar(c: char) {
    ('A' <= c <= 'Z') || ('a' <= c <= 'z') || ('0' <= c <= '9') || c == '+' || c == '/'
  }

  /** The character that stands for the six-bit value `v`. */
  function CharOf(v: Sextet): (c: char)
    ensures IsAlphabetChar(c)
  {
    if v < 26 then ('A' as int + v) as char
    else if v < 52 then ('a' as int + (v - 26)) as char
    else if v < 62 then ('0' as int + (v - 52)) as char
    else if v == 62 then '+'
    else '/'
  }

  /** The six-bit value an alphabet character stands for. */
  function ValueOf(c: char): (v: Sextet)
    requires IsAlphabetChar(c)
  {
    if 'A' <= c <= 'Z' then c as int - 'A' as int
    else if 'a' <= c <= 'z' then c as int - 'a' as int + 26
    else if '0' <= c <= '9' then c as int - '0' as int + 52
    else if c == '+' then 62
    else 63
  }

  /** CharOf and ValueOf are inverse bijections between [0, 64) and the alphabet. */
  lemma ValueOfCharOf(v: Sextet)
    ensures ValueOf(CharOf(v)) == v
  {
  }

  lemma CharOfValueOf(c: char)
    requires IsAlphabetChar(c)
    ensures CharOf(ValueOf(c)) == c
  {
  }

  predicate AllAlphabet(s: string) {
    forall i :: 0 <= i < |s| ==> IsAlphabetChar(s[i])
  }

  /** ASCII whitespace as the Infra standard defines it: TAB, LF, FF, CR, SPACE. */
  predicate IsAsciiWhitespace(c: char) {
    c == '\t' || c == '\n' || c == '\U{000C}' || c == '\r' || c == ' '
  }

  /** Removes ASCII whitespace, keeping every other character in order
      (the order is stated by `StripWhitespaceAppend` and `StripWhitespaceOne`). */
  function StripWhitespace(s: string): (r: string)
    ensures |r| <= |s|
    ensures forall i :: 0 <= i < |r| ==> !IsAsciiWhitespace(r[i]) && r[i] in s
    ensures forall i :: 0 <= i < |s| && !IsAsciiWhitespace(s[i]) ==> s[i] in r
    ensures (forall i :: 0 <= i < |s| ==> !IsAsciiWhitespace(s[i])) ==> r == s
    decreases |s|
  {
    if s == [] then []
    else
      var rest := StripWhitespace(s[1..]);
      assert forall i :: 1 <= i < |s| ==> s[i] == s[1..][i - 1];
      if IsAsciiWhitespace(s[0]) then rest
      else [s[0]] + rest
  }

  /** One character: whitespace vanishes, anything else stays. */
  lemma StripWhitespaceOne(c: char)
    ensures StripWhitespace([c]) == if IsAsciiWhitespace(c) then [] else [c]
  {
    assert [c][1..] == [];
  }

  /** Stripping works piece by piece: with `StripWhitespaceOne` this pins the
      result down as the input's non-whitespace characters, in order. */
  lemma {:induction false} StripWhitespaceAppend(a: string, b: string)
    ensures StripWhitespace(a + b) == StripWhitespace(a) + StripWhitespace(b)
    decreases |a|
  {
    if a == [] {
      assert a + b == b;
    } else {
      assert (a + b)[1..] == a[1..] + b;
      StripWhitespaceAppend(a[1..], b);
    }
  }

  // ---------------------------------------------------------------------------
  // Encoding (the inverse the round trips are stated against)
  // ---------------------------------------------------------------------------

  function Hi6(b0: Byte): Sextet { b0 / 4 }
  function Mid6a(b0: Byte, b1: Byte): Sextet { (b0 % 4) * 16 + b1 / 16 }
  function Mid6b(b1: Byte, b2: Byte): Sextet { (b1 % 16) * 4 + b2 / 64 }
  function Lo6(b2: Byte): Sextet { b2 % 64 }

  /** The four characters that encode a full group of three bytes. */
  function Quad(b0: Byte, b1: Byte, b2: Byte): (q: string)
    ensures |q| == 4 && AllAlphabet(q)
  {
    [CharOf(Hi6(b0)), CharOf(Mid6a(b0, b1)), CharOf(Mid6b(b1, b2)), CharOf(Lo6(b2))]
  }

  /** Standard-alphabet encoding without trailing '=' padding. */
  function EncodeUnpadded(b: seq<Byte>): (s: string)
    ensures AllAlphabet(s)
    ensures |b| < 3 ==> |s| == (if |b| == 0 then 0 else |b| + 1)
    decreases |b|
  {
    if |b| >= 3 then
      Quad(b[0], b[1], b[2]) + EncodeUnpadded(b[3..])
    else if |b| == 2 then
      [CharOf(Hi6(b[0])), CharOf(Mid6a(b[0], b[1])), CharOf(Mid6b(b[1], 0))]
    else if |b| == 1 then
      [CharOf(Hi6(b[0])), CharOf(Mid6a(b[0], 0))]
    else
      []
  }

  /** The '=' characters that complete a final group of `n % 3` bytes. */
  function Padding(n: nat): (p: string)
    ensures |p| < 3 && forall i :: 0 <= i < |p| ==> p[i] == '='
  {
    if n % 3 == 1 then "==" else if n % 3 == 2 then "=" else ""
  }

  /** Padded encoding in the standard alphabet (section 4 of RFC 4648). */
  function Encode(b: seq<Byte>): (s: string)
    ensures |s| % 4 == 0
  {
    EncodeLength(b);
    EncodeUnpadded(b) + Padding(|b|)
  }

  /** The URL- and filename-safe alphabet of section 5 of RFC 4648. */
  function ToUrlSafeChar(c: char): char {
    if c == '+' then '-' else if c == '/' then '_' else c
  }

  function ToUrlSafe(s: string): (r: string)
    ensures |r| == |s|
    ensures forall i :: 0 <= i < |s| ==> r[i] == ToUrlSafeChar(s[i])
  {
    seq(|s|, i requires 0 <= i < |s| => ToUrlSafeChar(s[i]))
  }

  /** Unpadded URL-safe encoding, the form usually embedded in markup. */
  function EncodeUrlUnpadded(b: seq<Byte>): (s: string)
    ensures '+' !in s && '/' !in s && '=' !in s
  {
    ToUrlSafe(EncodeUnpadded(b))
  }

  /** Padded URL-safe encoding. */
  function EncodeUrl(b: seq<Byte>): (s: string)
    ensures '+' !in s && '/' !in s && |s| % 4 == 0
  {
    ToUrlSafe(Encode(b))
  }

  // ---------------------------------------------------------------------------
  // Forgiving decoding (what `atob` does)
  // ---------------------------------------------------------------------------

  /** The bytes a group of six-bit values carries (big-endian bit order). */
  function Byte0(v0: Sextet, v1: Sextet): Byte { v0 * 4 + v1 / 16 }
  function Byte1(v1: Sextet, v2: Sextet): Byte { (v1 % 16) * 16 + v2 / 4 }
  function Byte2(v2: Sextet, v3: Sextet): Byte { (v2 % 4) * 64 + v3 }

  /** Decodes unpadded alphabet characters; a final group of 2 or 3 characters
      yields 1 or 2 bytes and its leftover low bits are discarded. A lone final
      character (rejected beforehand by ForgivingDecode) contributes nothing. */
  function DecodeGroups(s: string): (b: seq<Byte>)
    requires AllAlphabet(s)
    decreases |s|
  {
    if |s| >= 4 then
      [Byte0(ValueOf(s[0]), ValueOf(s[1])), Byte1(ValueOf(s[1]), ValueOf(s[2])),
       Byte2(ValueOf(s[2]), ValueOf(s[3]))] + DecodeGroups(s[4..])
    else if |s| == 3 then
      [Byte0(ValueOf(s[0]), ValueOf(s[1])), Byte1(ValueOf(s[1]), ValueOf(s[2]))]
    else if |s| == 2 then
      [Byte0(ValueOf(s[0]), ValueOf(s[1]))]
    else
      []
  }

  /** Drops one or two trailing '=' from a string whose length is a multiple of four. */
  function DropPadding(s: string): (r: string)
    ensures |r| <= |s| && r == s[..|r|]
    ensures |s| - 2 <= |r| && forall i :: |r| <= i < |s| ==> s[i] == '='
    // only a length divisible by four loses anything ...
    ensures |s| % 4 != 0 ==> r == s
    // ... and then it loses every trailing '=', up to two
    ensures |s| % 4 == 0 ==> (r == s <==> |s| == 0 || s[|s| - 1] != '=')
    ensures |s| % 4 == 0 ==> (|r| == |s| - 2 <==> |s| >= 2 && s[|s| - 1] == '=' && s[|s| - 2] == '=')
  {
    if |s| % 4 == 0 && |s| >= 2 && s[|s| - 1] == '=' && s[|s| - 2] == '=' then s[..|s| - 2]
    else if |s| % 4 == 0 && |s| >= 1 && s[|s| - 1] == '=' then s[..|s| - 1]
    else s
  }

  /** The forgiving-base64 decode of the WHATWG Infra standard, as `atob` runs it. */
  function ForgivingDecode(s: string): (r: Option<seq<Byte>>)
    ensures r.Some? <==>
      (var d := DropPadding(StripWhitespace(s)); |d| % 4 != 1 && AllAlphabet(d))
  {
    var d := DropPadding(StripWhitespace(s));
    if |d| % 4 == 1 then None
    else if !AllAlphabet(d) then None
    else Some(DecodeGroups(d))
  }

  // ---------------------------------------------------------------------------
  // Round trips
  // ---------------------------------------------------------------------------

  /** Splitting three bytes into four six-bit values and joining them back is the identity. */
  lemma Group3(b0: Byte, b1: Byte, b2: Byte)
    ensures Byte0(Hi6(b0), Mid6a(b0, b1)) == b0
    ensures Byte1(Mid6a(b0, b1), Mid6b(b1, b2)) == b1
    ensures Byte2(Mid6b(b1, b2), Lo6(b2)) == b2
  {
  }

  /** How DecodeGroups consumes a leading full group, whatever the characters. */
  lemma DecodeGroupsCons(c0: char, c1: char, c2: char, c3: char, rest: string)
    requires IsAlphabetChar(c0) && IsAlphabetChar(c1) && IsAlphabetChar(c2) && IsAlphabetChar(c3)
    requires AllAlphabet(rest)
    ensures AllAlphabet([c0, c1, c2, c3] + rest)
    ensures DecodeGroups([c0, c1, c2, c3] + rest)
      == [Byte0(ValueOf(c0), ValueOf(c1)), Byte1(ValueOf(c1), ValueOf(c2)), Byte2(ValueOf(c2), ValueOf(c3))]
         + DecodeGroups(rest)
  {
    assert ([c0, c1, c2, c3] + rest)[4..] == rest;
  }

  lemma ModFourShift(n: nat)
    ensures (n + 4) % 4 == n % 4
  {
  }

  /** The unpadded encoding never leaves a single character in its last group. */
  lemma {:induction false} EncodeUnpaddedLength(b: seq<Byte>)
    ensures |EncodeUnpadded(b)| % 4 == (if |b| % 3 == 0 then 0 else |b| % 3 + 1)
    decreases |b|
  {
    if |b| >= 3 {
      EncodeUnpaddedLength(b[3..]);
      ModFourShift(|EncodeUnpadded(b[3..])|);
      ModThreeShift(|b[3..]|);
    }
  }

  /** Padding completes the last group: the padded length is a multiple of four. */
  lemma EncodeLength(b: seq<Byte>)
    ensures (|EncodeUnpadded(b)| + |Padding(|b|)|) % 4 == 0
  {
    EncodeUnpaddedLength(b);
    ModFourPad(|EncodeUnpadded(b)|, |Padding(|b|)|);
  }

  lemma ModFourPad(x: nat, p: nat)
    requires (x % 4 == 0 && p == 0) || (x % 4 == 2 && p == 2) || (x % 4 == 3 && p == 1)
    ensures (x + p) % 4 == 0
  {
    assert x == 4 * (x / 4) + x % 4;
    assert x + p == 4 * (x / 4 + 1) || x + p == 4 * (x / 4);
  }

  lemma ModThreeShift(n: nat)
    ensures (n + 3) % 3 == n % 3
  {
  }

  /** One full group: four encoded characters decode to the three bytes. */
  lemma DecodeFullGroup(b0: Byte, b1: Byte, b2: Byte, rest: string)
    requires AllAlphabet(rest)
    ensures AllAlphabet(Quad(b0, b1, b2) + rest)
    ensures DecodeGroups(Quad(b0, b1, b2) + rest) == [b0, b1, b2] + DecodeGroups(rest)
  {
    DecodeGroupsCons(CharOf(Hi6(b0)), CharOf(Mid6a(b0, b1)), CharOf(Mid6b(b1, b2)), CharOf(Lo6(b2)), rest);
    ValueOfCharOf(Hi6(b0));
    ValueOfCharOf(Mid6a(b0, b1));
    ValueOfCharOf(Mid6b(b1, b2));
    ValueOfCharOf(Lo6(b2));
    Group3(b0, b1, b2);
  }

  /** A final group of three characters decodes to two bytes. */
  lemma DecodeTwoByteGroup(b0: Byte, b1: Byte)
    ensures DecodeGroups([CharOf(Hi6(b0)), CharOf(Mid6a(b0, b1)), CharOf(Mid6b(b1, 0))]) == [b0, b1]
  {
    var s := [CharOf(Hi6(b0)), CharOf(Mid6a(b0, b1)), CharOf(Mid6b(b1, 0))];
    assert AllAlphabet(s);
    assert DecodeGroups(s) == [Byte0(ValueOf(s[0]), ValueOf(s[1])), Byte1(ValueOf(s[1]), ValueOf(s[2]))];
    ValueOfCharOf(Hi6(b0));
    ValueOfCharOf(Mid6a(b0, b1));
    ValueOfCharOf(Mid6b(b1, 0));
    Group3(b0, b1, 0);
  }

  /** A final group of two characters decodes to one byte. */
  lemma DecodeOneByteGroup(b0: Byte)
    ensures DecodeGroups([CharOf(Hi6(b0)), CharOf(Mid6a(b0, 0))]) == [b0]
  {
    var s := [CharOf(Hi6(b0)), CharOf(Mid6a(b0, 0))];
    assert AllAlphabet(s);
    assert DecodeGroups(s) == [Byte0(ValueOf(s[0]), ValueOf(s[1]))];
    ValueOfCharOf(Hi6(b0));
    ValueOfCharOf(Mid6a(b0, 0));
    Group3(b0, 0, 0);
  }

  /** The round trip for a final group of fewer than three bytes. */
  lemma DecodeLastGroup(b: seq<Byte>)
    requires |b| < 3
    ensures DecodeGroups(EncodeUnpadded(b)) == b
  {
    if |b| == 2 {
      DecodeTwoByteGroup(b[0], b[1]);
    } else if |b| == 1 {
      DecodeOneByteGroup(b[0]);
    }
  }

  /** Decoding undoes unpadded encoding. */
  lemma {:induction false} DecodeEncodeUnpadded(b: seq<Byte>)
    ensures DecodeGroups(EncodeUnpadded(b)) == b
    decreases |b|
  {
    if |b| >= 3 {
      var b0, b1, b2, tail := b[0], b[1], b[2], b[3..];
      var rest := EncodeUnpadded(tail);
      calc {
        DecodeGroups(EncodeUnpadded(b));
        { assert EncodeUnpadded(b) == Quad(b0, b1, b2) + rest; }
        DecodeGroups(Quad(b0, b1, b2) + rest);
        { DecodeFullGroup(b0, b1, b2, rest); }
        [b0, b1, b2] + DecodeGroups(rest);
        { DecodeEncodeUnpadded(tail); }
        [b0, b1, b2] + tail;
        { assert b == [b0, b1, b2] + tail; }
        b;
      }
    } else {
      DecodeLastGroup(b);
    }
  }

  /** Every character is in the alphabet or is the pad character '='. */
  predicate AlphabetOrPad(s: string) {
    forall i :: 0 <= i < |s| ==> IsAlphabetChar(s[i]) || s[i] == '='
  }

  lemma NoWhitespaceInAlphabet(s: string)
    requires AlphabetOrPad(s)
    ensures StripWhitespace(s) == s
  {
  }

  /** The padded encoding uses only the alphabet and '='. */
  lemma EncodeAlphabet(b: seq<Byte>)
    ensures AlphabetOrPad(Encode(b))
  {
    var s, u := Encode(b), EncodeUnpadded(b);
    forall i | 0 <= i < |s|
      ensures IsAlphabetChar(s[i]) || s[i] == '='
    {
      if i >= |u| {
        assert s[i] == Padding(|b|)[i - |u|];
      }
    }
  }

  /** The padded encoding loses its padding, and nothing else, to DropPadding. */
  lemma DropPaddingOfEncode(b: seq<Byte>)
    ensures DropPadding(Encode(b)) == EncodeUnpadded(b)
  {
    var u := EncodeUnpadded(b);
    var s := Encode(b);
    if |b| % 3 == 1 {
      assert s[..|s| - 2] == u;
    } else if |b| % 3 == 2 {
      assert s[..|s| - 1] == u;
      if |s| >= 2 {
        assert s[|s| - 2] == u[|u| - 1];
      }
    } else {
      assert s == u;
      if |s| >= 1 {
        assert s[|s| - 1] == u[|u| - 1];
      }
    }
  }

  /** `atob` decodes every padded standard encoding back to its bytes. */
  lemma ForgivingDecodeEncode(b: seq<Byte>)
    ensures ForgivingDecode(Encode(b)) == Some(b)
  {
    var s := Encode(b);
    EncodeAlphabet(b);
    NoWhitespaceInAlphabet(s);
    DropPaddingOfEncode(b);
    EncodeUnpaddedLength(b);
    DecodeEncodeUnpadded(b);
  }
}

=== FILE: botgate.dfy ===
/**
 * The bot gate of security.js: `isBotUserAgent` classifies the browser's
 * user agent by a case-insensitive substring match against a fixed keyword
 * list, and `initContactProtection` picks one of two protection plans from
 * that verdict. The user agent is a parameter; the DOM work of each plan is
 * named, not performed.
 */
module BotGate {

  /** The keywords, in the order the source lists them. */
  const BotKeywords: seq<string> := [
    "bot", "crawler", "spider", "crawling", "slurp", "mediapartners",
    "googlebot", "bingbot", "yandexbot", "duckduckbot", "baiduspider",
    "mj12bot", "ahrefsbot", "semrushbot", "rogerbot", "exabot",
    "scanner", "analyzer", "webbot", "feedfetcher", "mail.ru"
  ]

  function LowerChar(c: char): char {
    if 'A' <= c <= 'Z' then (c as int + 32) as char else c
  }

  function UpperChar(c: char): char {
    if 'a' <= c <= 'z' then (c as int - 32) as char else c
  }

  /** `toLowerCase`, restricted to the ASCII letters. */
  function ToLower(s: string): (r: string)
    ensures |r| == |s| && forall i :: 0 <= i < |s| ==> r[i] == LowerChar(s[i])
    // no ASCII capital is left, and every other character is kept
    ensures forall i :: 0 <= i < |r| ==> !('A' <= r[i] <= 'Z')
    ensures forall i :: 0 <= i < |s| && !('A' <= s[i] <= 'Z') ==> r[i] == s[i]
    // a capital becomes the small letter that upper-cases back to it
    ensures forall i :: 0 <= i < |s| && 'A' <= s[i] <= 'Z' ==> 'a' <= r[i] <= 'z' && UpperChar(r[i]) == s[i]
  {
    seq(|s|, i requires 0 <= i < |s| => LowerChar(s[i]))
  }

  function ToUpper(s: string): (r: string)
    ensures |r| == |s| && forall i :: 0 <= i < |s| ==> r[i] == UpperChar(s[i])
  {
    seq(|s|, i requires 0 <= i < |s| => UpperChar(s[i]))
  }

  /** `k` occurs in `s` starting at index `i`. */
  predicate OccursAt(s: string, k: string, i: int) {
    0 <= i && i + |k| <= |s| && s[i..i + |k|] == k
  }

  /** `k` occurs in `s` at some position. */
  ghost predicate Contains(s: string, k: string) {
    exists i :: OccursAt(s, k, i)
  }

  /** `s.includes(k)`, as a left-to-right scan. */
  function Includes(s: string, k: string): (r: bool)
    ensures r <==> Contains(s, k)
    decreases |s|
  {
    if |k| > |s| then false
    else if s[..|k|] == k then
      assert OccursAt(s, k, 0);
      true
    else
      var r := Includes(s[1..], k);
      assert r ==> Contains(s, k) by {
        if r {
          var i :| OccursAt(s[1..], k, i);
          assert s[i + 1..i + 1 + |k|] == s[1..][i..i + |k|];
          assert OccursAt(s, k, i + 1);
        }
      }
      assert Contains(s, k) ==> r by {
        if Contains(s, k) {
          var i :| OccursAt(s, k, i);
          assert i != 0;
          assert s[1..][i - 1..i - 1 + |k|] == s[i..i + |k|];
          assert OccursAt(s[1..], k, i - 1);
        }
      }
      r
  }

  /** `keywords.some(keyword => s.includes(keyword))`. */
  function SomeIncluded(s: string, keywords: seq<string>): (r: bool)
    ensures r <==> exists j :: 0 <= j < |keywords| && Contains(s, keywords[j])
    decreases |keywords|
  {
    if keywords == [] then false
    else if Includes(s, keywords[0]) then true
    else
      var r := SomeIncluded(s, keywords[1..]);
      assert r ==> exists j :: 0 <= j < |keywords| && Contains(s, keywords[j]) by {
        if r {
          var j :| 0 <= j < |keywords[1..]| && Contains(s, keywords[1..][j]);
          assert Contains(s, keywords[j + 1]);
        }
      }
      r
  }

  /** `isBotUserAgent`: some keyword occurs in the lower-cased user agent. */
  function IsBotUserAgent(userAgent: string): (r: bool)
    ensures r <==> exists j :: 0 <= j < |BotKeywords| && Contains(ToLower(userAgent), BotKeywords[j])
  {
    SomeIncluded(ToLower(userAgent), BotKeywords)
  }

  // ---------------------------------------------------------------------------
  // Properties of the classifier
  // ---------------------------------------------------------------------------

  lemma LowerUpper(s: string)
    ensures ToLower(ToUpper(s)) == ToLower(s) && ToLower(ToLower(s)) == ToLower(s)
  {
  }

  /** The verdict does not depend on the case of ASCII letters. */
  lemma CaseInsensitive(userAgent: string)
    ensures IsBotUserAgent(ToUpper(userAgent)) == IsBotUserAgent(userAgent)
    ensures IsBotUserAgent(ToLower(userAgent)) == IsBotUserAgent(userAgent)
  {
    LowerUpper(userAgent);
  }

  lemma ToLowerAppend(a: string, b: string)
    ensures ToLower(a + b) == ToLower(a) + ToLower(b)
  {
  }

  /** An occurrence inside an occurrence is an occurrence. */
  lemma ContainsTransitive(s: string, k: string, j: string)
    requires Contains(s, k) && Contains(k, j)
    ensures Contains(s, j)
  {
    var i :| OccursAt(s, k, i);
    var o :| OccursAt(k, j, o);
    forall t | 0 <= t < |j|
      ensures s[i + o + t] == j[t]
    {
      assert s[i..i + |k|][o + t] == s[i + o + t];
      assert k[o..o + |j|][t] == k[o + t];
    }
    assert s[i + o..i + o + |j|] == j;
    assert OccursAt(s, j, i + o);
  }

  /** Any user agent with "bot" in any letter case around anything is a bot;
      in particular every casing of "Googlebot". */
  lemma BotInAnyCase(pre: string, word: string, post: string)
    requires ToLower(word) == "bot" || ToLower(word) == "googlebot"
    ensures IsBotUserAgent(pre + word + post)
  {
    var s := ToLower(pre + word + post);
    ToLowerAppend(pre + word, post);
    ToLowerAppend(pre, word);
    var w := ToLower(word);
    assert s[|pre|..|pre| + |w|] == w;
    assert OccursAt(s, w, |pre|);
    if w == "googlebot" {
      assert OccursAt(w, "bot", 6);
      ContainsTransitive(s, w, "bot");
    }
    assert Contains(s, BotKeywords[0]);
  }

  /** The keywords that no other keyword contains. */
  const CoreKeywords: seq<string> := [
    "bot", "crawler", "spider", "crawling", "slurp", "mediapartners",
    "scanner", "analyzer", "feedfetcher", "mail.ru"
  ]

  /** For each keyword, the core keyword inside it ... */
  const CoreOf: seq<nat> := [0, 1, 2, 3, 4, 5, 0, 0, 0, 0, 2, 0, 0, 0, 0, 0, 6, 7, 0, 8, 9]

  /** ... and where it starts. */
  const CoreAt: seq<nat> := [0, 0, 0, 0, 0, 0, 6, 4, 6, 8, 5, 4, 6, 7, 5, 3, 0, 0, 3, 0, 0]

  lemma CoreInside(j: nat)
    requires j < |BotKeywords|
    ensures CoreOf[j] < |CoreKeywords| && OccursAt(BotKeywords[j], CoreKeywords[CoreOf[j]], CoreAt[j])
  {
  }

  /** The eleven keywords that contain "bot" or "spider" never change the
      verdict: the list is equivalent to its ten core keywords. */
  lemma CoreKeywordsSuffice(userAgent: string)
    ensures IsBotUserAgent(userAgent) <==>
      exists j :: 0 <= j < |CoreKeywords| && Contains(ToLower(userAgent), CoreKeywords[j])
  {
    var s := ToLower(userAgent);
    if j :| 0 <= j < |BotKeywords| && Contains(s, BotKeywords[j]) {
      CoreInside(j);
      ContainsTransitive(s, BotKeywords[j], CoreKeywords[CoreOf[j]]);
    }
    if m :| 0 <= m < |CoreKeywords| && Contains(s, CoreKeywords[m]) {
      var j := [0, 1, 2, 3, 4, 5, 16, 17, 19, 20][m];
      assert BotKeywords[j] == CoreKeywords[m];
      assert Contains(s, BotKeywords[j]);
    }
  }

  /** Every keyword contains one of these letters ... */
  const KeyLetters := "bcpuy"

  /** ... at these positions, keyword by keyword. */
  const KeyLetterAt: seq<nat> := [0, 0, 1, 0, 2, 5, 6, 0, 0, 1, 0, 4, 6, 4, 5, 3, 1, 4, 2, 7, 6]

  lemma KeyLetterInEveryKeyword(j: nat)
    requires j < |BotKeywords|
    ensures KeyLetterAt[j] < |BotKeywords[j]| && BotKeywords[j][KeyLetterAt[j]] in KeyLetters
  {
  }

  /** A character outside "bcpuyBCPUY" does not lower-case to a key letter. */
  lemma LowerNonKeyLetter(c: char)
    requires c !in "bcpuyBCPUY"
    ensures LowerChar(c) !in KeyLetters
  {
  }

  /** A word with a key letter cannot occur in a text without key letters. */
  lemma NoOccurrence(s: string, k: string, o: nat)
    requires o < |k| && k[o] in KeyLetters
    requires forall i :: 0 <= i < |s| ==> s[i] !in KeyLetters
    ensures !Contains(s, k)
  {
    forall i | 0 <= i && i + |k| <= |s|
      ensures !OccursAt(s, k, i)
    {
      assert s[i..i + |k|][o] == s[i + o];
    }
  }

  /** A user agent without any of the letters b, c, p, u, y (in either case)
      is never a bot. */
  lemma NoKeyLetterIsNotBot(userAgent: string)
    requires forall i :: 0 <= i < |userAgent| ==> userAgent[i] !in "bcpuyBCPUY"
    ensures !IsBotUserAgent(userAgent)
  {
    var s := ToLower(userAgent);
    forall i | 0 <= i < |s|
      ensures s[i] !in KeyLetters
    {
      LowerNonKeyLetter(userAgent[i]);
    }
    forall j | 0 <= j < |BotKeywords|
      ensures !Contains(s, BotKeywords[j])
    {
      KeyLetterInEveryKeyword(j);
      NoOccurrence(s, BotKeywords[j], KeyLetterAt[j]);
    }
  }

  // ---------------------------------------------------------------------------
  // initContactProtection
  // ---------------------------------------------------------------------------

  /** The protection routines `initContactProtection` can run. */
  datatype Protection = HideContactInformation | ProtectEmailAddresses | ProtectPhoneNumbers

  /** The routines run, in order, for the given user agent. */
  function InitContactProtection(userAgent: string): (plan: seq<Protection>)
    ensures |plan| >= 1
    ensures HideContactInformation in plan <==> IsBotUserAgent(userAgent)
    ensures HideContactInformation in plan ==> plan == [HideContactInformation]
    ensures HideContactInformation !in plan ==> plan == [ProtectEmailAddresses, ProtectPhoneNumbers]
  {
    if IsBotUserAgent(userAgent) then [HideContactInformation]
    else [ProtectEmailAddresses, ProtectPhoneNumbers]
  }

  /** A crawler announcing itself as Googlebot gets only the hiding routine:
      `protectEmailAddresses` and `protectPhoneNumbers` do not run for it. */
  lemma BotNeverProtected(pre: string, word: string, post: string)
    requires ToLower(word) == "googlebot"
    ensures InitContactProtection(pre + word + post) == [HideContactInformation]
  {
    BotInAnyCase(pre, word, post);
  }
}

=== FILE: clicktracking.dfy ===
/**
 * The click-rate window of `initClickTracking` in security.js: every click
 * that bubbles up to the document records `Date.now()`, drops timestamps
 * ten seconds old or older, and warns when more than thirty remain. The clock reading is a
 * parameter of each step.
 */
module ClickTracking {

  const MaxClickCount := 30
  const ClickTimeWindow := 10000

  /** The closure state: the click counter and the retained timestamps (ms). */
  datatype Tracker = Tracker(clickCount: nat, timestamps: seq<int>)

  const Initial := Tracker(0, [])

  /** A timestamp still inside the window at time `now`. */
  predicate Recent(now: int, t: int) {
    now - t < ClickTimeWindow
  }

  /** `ts.filter(t => now - t < clickTimeWindow)`, as a reference definition. */
  function KeepRecent(ts: seq<int>, now: int): (r: seq<int>)
    ensures |r| <= |ts|
    ensures forall i :: 0 <= i < |r| ==> Recent(now, r[i])
    ensures forall t :: t in r <==> t in ts && Recent(now, t)
    decreases |ts|
  {
    if ts == [] then []
    else if Recent(now, ts[|ts| - 1]) then KeepRecent(ts[..|ts| - 1], now) + [ts[|ts| - 1]]
    else KeepRecent(ts[..|ts| - 1], now)
  }

  /** The filter-and-refill of the handler: the array is rebuilt by pushing
      each kept timestamp in order. */
  method FilterWindow(ts: seq<int>, now: int) returns (kept: seq<int>)
    ensures kept == KeepRecent(ts, now)
  {
    kept := [];
    var i := 0;
    while i < |ts|
      invariant 0 <= i <= |ts|
      invariant kept == KeepRecent(ts[..i], now)
    {
      assert ts[..i + 1][..i] == ts[..i];
      if Recent(now, ts[i]) {
        kept := kept + [ts[i]];
      }
      i := i + 1;
    }
    assert ts[..i] == ts;
  }

  /** What one click leaves behind, and whether it raised the warning. */
  datatype ClickOutcome = ClickOutcome(tracker: Tracker, abnormal: bool)

  /** The document click handler, at clock reading `now`. */
  function OnClick(t: Tracker, now: int): (r: ClickOutcome)
    ensures r.tracker.clickCount == t.clickCount + 1
    ensures |r.tracker.timestamps| >= 1 && r.tracker.timestamps[|r.tracker.timestamps| - 1] == now
    ensures forall x :: x in r.tracker.timestamps <==> (x in t.timestamps || x == now) && Recent(now, x)
    ensures r.abnormal <==> |r.tracker.timestamps| > MaxClickCount
  {
    var ts := t.timestamps + [now];
    assert ts[..|ts| - 1] == t.timestamps;
    var kept := KeepRecent(ts, now);
    ClickOutcome(Tracker(t.clickCount + 1, kept), |kept| > MaxClickCount)
  }

  // ---------------------------------------------------------------------------
  // Properties of the window
  // ---------------------------------------------------------------------------

  /** The filter works element by element: filtering a concatenation is
      concatenating the filtered parts. With the one-element case this pins
      down the result as the in-order subsequence of recent timestamps. */
  lemma {:induction false} KeepRecentAppend(a: seq<int>, b: seq<int>, now: int)
    ensures KeepRecent(a + b, now) == KeepRecent(a, now) + KeepRecent(b, now)
    decreases |b|
  {
    if b == [] {
      assert a + b == a;
    } else {
      var b' := b[..|b| - 1];
      assert (a + b)[..|a + b| - 1] == a + b';
      KeepRecentAppend(a, b', now);
    }
  }

  lemma KeepRecentSingle(x: int, now: int)
    ensures KeepRecent([x], now) == if Recent(now, x) then [x] else []
  {
    assert [x][..0] == [];
  }

  /** After a click the window is the old window, re-filtered, followed by the new click. */
  lemma OnClickAppends(t: Tracker, now: int)
    ensures OnClick(t, now).tracker.timestamps == KeepRecent(t.timestamps, now) + [now]
  {
    KeepRecentAppend(t.timestamps, [now], now);
    KeepRecentSingle(now, now);
  }

  /** Filtering twice at the same instant changes nothing. */
  lemma {:induction false} KeepRecentIdempotent(ts: seq<int>, now: int)
    ensures KeepRecent(KeepRecent(ts, now), now) == KeepRecent(ts, now)
    decreases |ts|
  {
    if ts != [] {
      var init := ts[..|ts| - 1];
      KeepRecentIdempotent(init, now);
      var r := KeepRecent(ts, now);
      if Recent(now, ts[|ts| - 1]) {
        assert r[..|r| - 1] == KeepRecent(init, now);
      }
    }
  }

  ghost predicate Sorted(ts: seq<int>) {
    forall i, j :: 0 <= i < j < |ts| ==> ts[i] <= ts[j]
  }

  /** Dropping the newest timestamp keeps the list sorted, below that timestamp. */
  lemma SortedInit(ts: seq<int>)
    requires Sorted(ts) && ts != []
    ensures Sorted(ts[..|ts| - 1])
    ensures forall i :: 0 <= i < |ts| - 1 ==> ts[i] <= ts[|ts| - 1]
  {
  }

  lemma SuffixOfSnoc(ts: seq<int>, n: nat)
    requires n < |ts|
    ensures ts[|ts| - (n + 1)..] == ts[..|ts| - 1][|ts| - 1 - n..] + [ts[|ts| - 1]]
  {
  }

  /** With a clock that never goes back, the window is a suffix: all the
      timestamps from the oldest recent one onwards. */
  lemma {:induction false} KeepRecentSuffix(ts: seq<int>, now: int)
    requires Sorted(ts)
    ensures var r := KeepRecent(ts, now); r == ts[|ts| - |r|..]
    decreases |ts|
  {
    if ts != [] {
      var init := ts[..|ts| - 1];
      var last := ts[|ts| - 1];
      SortedInit(ts);
      if Recent(now, last) {
        KeepRecentSuffix(init, now);
        SuffixOfSnoc(ts, |KeepRecent(init, now)|);
      } else {
        forall i | 0 <= i < |init|
          ensures !Recent(now, init[i])
        {
        }
        KeepRecentNone(init, now);
      }
    }
  }

  lemma {:induction false} KeepRecentNone(ts: seq<int>, now: int)
    requires forall i :: 0 <= i < |ts| ==> !Recent(now, ts[i])
    ensures KeepRecent(ts, now) == []
    decreases |ts|
  {
    if ts != [] {
      KeepRecentNone(ts[..|ts| - 1], now);
    }
  }

  /** The tracker after the clicks that reach the document handler, at the
      given clock readings, in order. A click on a revealed contact's copy
      button is not among them: its handler stops propagation. */
  function Run(t: Tracker, times: seq<int>): Tracker
    decreases |times|
  {
    if times == [] then t else Run(OnClick(t, times[0]).tracker, times[1..])
  }

  /** Every retained timestamp is at most `bound` and the list is sorted. */
  ghost predicate Window(ts: seq<int>, bound: int) {
    Sorted(ts) && forall i :: 0 <= i < |ts| ==> ts[i] <= bound
  }

  /** One click at a reading no earlier than every retained timestamp keeps
      the list sorted, keeps it within (now - 10000, now], and counts the click. */
  lemma OnClickWindow(t: Tracker, now: int)
    requires Window(t.timestamps, now)
    ensures var r := OnClick(t, now).tracker;
      Window(r.timestamps, now) && forall i :: 0 <= i < |r.timestamps| ==> now - ClickTimeWindow < r.timestamps[i]
  {
    var ts := t.timestamps + [now];
    assert Sorted(ts);
    KeepRecentSuffix(ts, now);
  }

  /** Under a clock that never goes back, every retained timestamp lies in
      (now - 10000, now] for the latest reading `now`, in order. */
  lemma {:induction false} RunWindow(t: Tracker, times: seq<int>, prev: int)
    requires Window(t.timestamps, prev)
    requires Sorted(times) && (times != [] ==> prev <= times[0])
    ensures Run(t, times).clickCount == t.clickCount + |times|
    ensures times != [] ==> var r := Run(t, times); var now := times[|times| - 1];
      Window(r.timestamps, now) && forall i :: 0 <= i < |r.timestamps| ==> now - ClickTimeWindow < r.timestamps[i]
    decreases |times|
  {
    if times != [] {
      var now := times[0];
      var o := OnClick(t, now).tracker;
      OnClickWindow(t, now);
      assert Sorted(times[1..]);
      RunWindow(o, times[1..], now);
      if |times| > 1 {
        assert times[|times| - 1] == times[1..][|times[1..]| - 1];
      }
    }
  }

  /** From page load, under a clock that never goes back: the counter counts
      every click that reaches the handler, and the window holds, in order, only timestamps in
      (now - 10000, now] for the latest reading `now`. */
  lemma InitialRunWindow(times: seq<int>)
    requires Sorted(times)
    ensures Run(Initial, times).clickCount == |times|
    ensures times != [] ==> var r := Run(Initial, times); var now := times[|times| - 1];
      Window(r.timestamps, now) && forall i :: 0 <= i < |r.timestamps| ==> now - ClickTimeWindow < r.timestamps[i]
  {
    if times != [] {
      RunWindow(Initial, times, times[0]);
    } else {
      RunWindow(Initial, times, 0);
    }
  }
}

=== FILE: codec.dfy ===
/**
 * The contact codec shared by script.js (`ContactHandler`) and security.js
 * (`securityUtils`): `decodeContact` turns a Base64 payload from a `data-*`
 * attribute into the contact string, and `encodeEmail` hides a string behind
 * HTML numeric character references. The two files carry textually identical
 * copies of both, so one definition models both.
 */
module ContactCodec {
  import opened Results
  import opened Base64
  import Decimal

  // ---------------------------------------------------------------------------
  // decodeContact
  // ---------------------------------------------------------------------------

  /** The only error `decodeContact` raises, whatever went wrong inside. */
  datatype DecodeError = DecodeError(message: string)

  const DecodeFailed := DecodeError("联系方式解码失败")

  /** `s.replace(/x/g, y)` for single characters. */
  function ReplaceAll(s: string, x: char, y: char): (r: string)
    ensures |r| == |s|
    ensures forall i :: 0 <= i < |s| ==> r[i] == (if s[i] == x then y else s[i])
  {
    seq(|s|, i requires 0 <= i < |s| => if s[i] == x then y else s[i])
  }

  /** Maps the URL-safe alphabet onto the standard one: '-' to '+', then '_' to '/'. */
  function ToStandardAlphabet(s: string): (r: string)
    ensures |r| == |s| && '-' !in r && '_' !in r
    ensures forall i :: 0 <= i < |s| ==>
      r[i] == (if s[i] == '-' then '+' else if s[i] == '_' then '/' else s[i])
  {
    ReplaceAll(ReplaceAll(s, '-', '+'), '_', '/')
  }

  /** The number of '=' the padding loop appends to reach a multiple of four. */
  function PadCount(n: nat): (k: nat)
    ensures k < 4 && (n + k) % 4 == 0
  {
    (4 - n % 4) % 4
  }

  function Equals(k: nat): (p: string)
    ensures |p| == k && forall i :: 0 <= i < k ==> p[i] == '='
  {
    seq(k, i => '=')
  }

  /** Appends '=' until the length is divisible by four. */
  function PadToFour(s: string): (r: string)
    ensures |r| % 4 == 0 && |s| <= |r| < |s| + 4
    ensures r[..|s|] == s && forall i :: |s| <= i < |r| ==> r[i] == '='
  {
    s + Equals(PadCount(|s|))
  }

  /** The `while (encodedString.length % 4) encodedString += '='` loop. */
  method PadLoop(s: string) returns (r: string)
    ensures r == PadToFour(s)
  {
    r := s;
    while |r| % 4 != 0
      invariant |s| <= |r| <= |s| + PadCount(|s|)
      invariant r == s + Equals(|r| - |s|)
      decreases |s| + PadCount(|s|) - |r|
    {
      r := r + "=";
    }
  }

  /** The string handed to `atob`. */
  function Normalize(s: string): (r: string)
    ensures '-' !in r && '_' !in r
    ensures |r| % 4 == 0 && |s| <= |r| < |s| + 4
    ensures r[..|s|] == ToStandardAlphabet(s)
    ensures forall i :: |s| <= i < |r| ==> r[i] == '='
  {
    PadToFour(ToStandardAlphabet(s))
  }

  /** The one-character-per-byte string `atob` returns. */
  function Latin1(b: seq<Byte>): (s: string)
    ensures |s| == |b| && forall i :: 0 <= i < |b| ==> s[i] as int == b[i]
  {
    seq(|b|, i requires 0 <= i < |b| => b[i] as char)
  }

  /** `decodeContact`: normalise, pad, `atob`; any failure becomes DecodeFailed. */
  function DecodeContact(encoded: string): (r: Result<string, DecodeError>)
    ensures r.Failure? ==> r.error == DecodeFailed
    ensures r.Failure? <==> ForgivingDecode(Normalize(encoded)).None?
    ensures r.Success? ==> forall i :: 0 <= i < |r.value| ==> r.value[i] as int < 256
  {
    match ForgivingDecode(Normalize(encoded))
    case None => Failure(DecodeFailed)
    case Some(bytes) => Success(Latin1(bytes))
  }

  // ---------------------------------------------------------------------------
  // decodeContact: round trips and failures
  // ---------------------------------------------------------------------------

  /** Standard padded Base64 passes through normalisation untouched. */
  lemma NormalizeStandard(s: string)
    requires AlphabetOrPad(s) && |s| % 4 == 0
    ensures Normalize(s) == s
  {
    assert ToStandardAlphabet(s) == s;
    assert PadCount(|s|) == 0;
  }

  /** decodeContact inverts standard padded Base64 (section 4 of RFC 4648). */
  lemma DecodeContactStandard(b: seq<Byte>)
    ensures DecodeContact(Encode(b)) == Success(Latin1(b))
  {
    EncodeAlphabet(b);
    NormalizeStandard(Encode(b));
    ForgivingDecodeEncode(b);
  }

  /** Normalising URL-safe unpadded Base64 yields the standard padded form. */
  lemma NormalizeUrlUnpadded(b: seq<Byte>)
    ensures Normalize(EncodeUrlUnpadded(b)) == Encode(b)
  {
    var u := EncodeUnpadded(b);
    StandardOfUrlSafe(u);
    PadMatchesPadding(b);
  }

  /** Mapping back from the URL-safe alphabet restores a standard encoding. */
  lemma StandardOfUrlSafe(u: string)
    requires AlphabetOrPad(u)
    ensures ToStandardAlphabet(ToUrlSafe(u)) == u
  {
  }

  /** The padding loop appends exactly the '=' the encoder would have written. */
  lemma PadMatchesPadding(b: seq<Byte>)
    ensures Equals(PadCount(|EncodeUnpadded(b)|)) == Padding(|b|)
  {
    var n := |EncodeUnpadded(b)|;
    EncodeLength(b);
    PadUnique(n, PadCount(n), |Padding(|b|)|);
  }

  /** At most one count below four completes a length to a multiple of four. */
  lemma PadUnique(n: nat, k1: nat, k2: nat)
    requires k1 < 4 && k2 < 4 && (n + k1) % 4 == 0 && (n + k2) % 4 == 0
    ensures k1 == k2
  {
    assert n + k1 == 4 * ((n + k1) / 4);
    assert n + k2 == 4 * ((n + k2) / 4);
  }

  /** Standard unpadded Base64 normalises to the padded form. */
  lemma NormalizeStandardUnpadded(b: seq<Byte>)
    ensures Normalize(EncodeUnpadded(b)) == Encode(b)
  {
    var u := EncodeUnpadded(b);
    assert ToStandardAlphabet(u) == u;
    PadMatchesPadding(b);
  }

  /** decodeContact inverts standard Base64 with its '=' padding left off. */
  lemma DecodeContactStandardUnpadded(b: seq<Byte>)
    ensures DecodeContact(EncodeUnpadded(b)) == Success(Latin1(b))
  {
    NormalizeStandardUnpadded(b);
    ForgivingDecodeEncode(b);
  }

  /** decodeContact inverts unpadded URL-safe Base64 (section 5 of RFC 4648). */
  lemma DecodeContactUrlUnpadded(b: seq<Byte>)
    ensures DecodeContact(EncodeUrlUnpadded(b)) == Success(Latin1(b))
  {
    NormalizeUrlUnpadded(b);
    ForgivingDecodeEncode(b);
  }

  /** decodeContact inverts padded URL-safe Base64 as well. */
  lemma DecodeContactUrlPadded(b: seq<Byte>)
    ensures DecodeContact(EncodeUrl(b)) == Success(Latin1(b))
  {
    var s := Encode(b);
    EncodeAlphabet(b);
    assert ToStandardAlphabet(ToUrlSafe(s)) == s;
    assert Normalize(EncodeUrl(b)) == s;
    ForgivingDecodeEncode(b);
  }

  /** A character outside both Base64 alphabets, '=' and ASCII whitespace
      makes decoding fail with the single decode error. */
  lemma DecodeContactForeignChar(s: string, i: nat)
    requires i < |s|
    requires !IsAlphabetChar(s[i]) && s[i] !in "-_=" && !IsAsciiWhitespace(s[i])
    ensures DecodeContact(s) == Failure(DecodeFailed)
  {
    var c := s[i];
    var n := Normalize(s);
    assert n[i] == ToStandardAlphabet(s)[i] == c;
    StripKeeps(n, i);
    var d := DropPadding(StripWhitespace(n));
    var w := StripWhitespace(n);
    var j :| 0 <= j < |w| && w[j] == c;
    assert j < |d| && d[j] == c;
  }

  /** A non-whitespace character survives whitespace removal. */
  lemma {:induction false} StripKeeps(s: string, i: nat)
    requires i < |s| && !IsAsciiWhitespace(s[i])
    ensures exists j :: 0 <= j < |StripWhitespace(s)| && StripWhitespace(s)[j] == s[i]
    decreases |s|
  {
    if i > 0 {
      StripKeeps(s[1..], i - 1);
      var t := StripWhitespace(s[1..]);
      var j :| 0 <= j < |t| && t[j] == s[1..][i - 1];
      if IsAsciiWhitespace(s[0]) {
        assert StripWhitespace(s) == t;
        assert StripWhitespace(s)[j] == s[i];
      } else {
        assert StripWhitespace(s) == [s[0]] + t;
        assert StripWhitespace(s)[j + 1] == s[i];
      }
    } else {
      assert StripWhitespace(s)[0] == s[0];
    }
  }

  /** Without whitespace, a length of 4k+1 always fails: padding appends three
      '=' and `atob` accepts at most two. */
  lemma DecodeContactLoneChar(s: string)
    requires forall i :: 0 <= i < |s| ==> !IsAsciiWhitespace(s[i])
    requires |s| % 4 == 1
    ensures DecodeContact(s) == Failure(DecodeFailed)
  {
    var n := Normalize(s);
    assert |n| == |s| + 3;
    forall i | 0 <= i < |n|
      ensures !IsAsciiWhitespace(n[i])
    {
      if i < |s| {
        assert n[i] == ToStandardAlphabet(s)[i];
      }
    }
    assert StripWhitespace(n) == n;
    var d := DropPadding(n);
    assert |d| >= |n| - 2 > |s|;
    assert d[|s|] == '=';
  }

  // ---------------------------------------------------------------------------
  // encodeEmail and its inverse
  // ---------------------------------------------------------------------------

  /** The numeric character reference `&#NN;` for one character. */
  function CharRef(c: char): (r: string)
    ensures |r| >= 4 && r[0] == '&' && r[1] == '#' && r[|r| - 1] == ';'
    ensures forall i :: 2 <= i < |r| - 1 ==> Decimal.IsDigit(r[i])
  {
    if c == '@' then "&#64;"
    else if c == '.' then "&#46;"
    else "&#" + Decimal.Show(c as int) + ";"
  }

  /** The special cases for '@' and '.' are the general rule applied to them. */
  lemma CharRefUniform(c: char)
    ensures CharRef(c) == "&#" + Decimal.Show(c as int) + ";"
  {
    if c == '@' {
      assert Decimal.Show(64) == "64";
    } else if c == '.' {
      assert Decimal.Show(46) == "46";
    }
  }

  predicate IsRefChar(c: char) {
    c == '&' || c == '#' || c == ';' || Decimal.IsDigit(c)
  }

  /** `encodeEmail`: every character, in order, as a numeric character reference. */
  function EncodeEmail(email: string): (r: string)
    ensures forall i :: 0 <= i < |r| ==> IsRefChar(r[i])
    ensures '@' !in r && '.' !in r
    ensures |r| >= 4 * |email|
    ensures email == [] <==> r == []
    decreases |email|
  {
    if email == [] then [] else CharRef(email[0]) + EncodeEmail(email[1..])
  }

  lemma {:induction false} EncodeEmailAppend(a: string, b: string)
    ensures EncodeEmail(a + b) == EncodeEmail(a) + EncodeEmail(b)
    decreases |a|
  {
    if a != [] {
      assert (a + b)[1..] == a[1..] + b;
      EncodeEmailAppend(a[1..], b);
    } else {
      assert a + b == b;
    }
  }

  /** The `for` loop of `encodeEmail`, appending one reference per character. */
  method EncodeEmailLoop(email: string) returns (encoded: string)
    ensures encoded == EncodeEmail(email)
  {
    encoded := "";
    var i := 0;
    while i < |email|
      invariant 0 <= i <= |email|
      invariant encoded == EncodeEmail(email[..i])
    {
      EncodeEmailAppend(email[..i], [email[i]]);
      assert email[..i + 1] == email[..i] + [email[i]];
      encoded := encoded + CharRef(email[i]);
      i := i + 1;
    }
    assert email[..i] == email;
  }

  /** Code points Dafny's `char` can hold (Unicode scalar values). */
  predicate IsScalar(n: int) {
    (0 <= n < 0xD800) || (0xE000 <= n < 0x11_0000)
  }

  /** An idealised reader of `&#NN;` references: each one names the
      character with that code; anything else is rejected. An HTML parser
      differs for a few codes (it turns `&#0;` into U+FFFD and reads
      most codes from 128 to 159 through the Windows-1252 table), which this reader does not
      model. */
  function ParseCharRefs(s: string): (r: Option<string>)
    decreases |s|
  {
    if s == [] then Some([])
    else if |s| < 3 || s[0] != '&' || s[1] != '#' then None
    else
      var digits := Decimal.DigitPrefix(s[2..]);
      var k := 2 + |digits|;
      if |digits| == 0 || k >= |s| || s[k] != ';' then None
      else
        var n := Decimal.Value(digits);
        if !IsScalar(n) then None
        else match ParseCharRefs(s[k + 1..])
          case None => None
          case Some(rest) => Some([n as char] + rest)
  }

  /** One reference followed by anything parses to its character followed by
      whatever the rest parses to. */
  lemma ParseCharRefCons(c: char, rest: string)
    ensures ParseCharRefs(CharRef(c) + rest) ==
      match ParseCharRefs(rest)
      case None => None
      case Some(t) => Some([c] + t)
  {
    CharRefUniform(c);
    var d := Decimal.Show(c as int);
    var s := CharRef(c) + rest;
    assert s == "&#" + d + ";" + rest;
    assert s[2..] == d + (";" + rest);
    Decimal.DigitPrefixStops(d, ";" + rest);
    Decimal.ValueShow(c as int);
    assert s[2 + |d|] == ';';
    assert s[2 + |d| + 1..] == rest;
  }

  /** encodeEmail is invertible: the references in its output name exactly the input. */
  lemma {:induction false} ParseEncodeEmail(email: string)
    ensures ParseCharRefs(EncodeEmail(email)) == Some(email)
    decreases |email|
  {
    if email != [] {
      ParseCharRefCons(email[0], EncodeEmail(email[1..]));
      ParseEncodeEmail(email[1..]);
      assert email == [email[0]] + email[1..];
    }
  }

  /** Hence encodeEmail never maps two strings to the same output. */
  lemma EncodeEmailInjective(a: string, b: string)
    requires EncodeEmail(a) == EncodeEmail(b)
    ensures a == b
  {
    ParseEncodeEmail(a);
    ParseEncodeEmail(b);
  }

  // ---------------------------------------------------------------------------
  // A worked example: a Base64 phone payload
  // ---------------------------------------------------------------------------

  /** The bytes of "14711116356". */
  const PhoneBytes: seq<Byte> := [49, 52, 55, 49, 49, 49, 49, 54, 51, 53, 54]

  /** The encoder's recursion on the phone bytes: three full groups and two bytes. */
  lemma PhoneGroups()
    ensures EncodeUnpadded(PhoneBytes) ==
      Quad(49, 52, 55) + Quad(49, 49, 49) + Quad(49, 54, 51) + EncodeUnpadded([53, 54])
  {
    var b := PhoneBytes;
    assert b[3..][3..] == b[6..];
    assert b[6..][3..] == b[9..] == [53, 54];
    assert EncodeUnpadded(b[6..]) == Quad(49, 54, 51) + EncodeUnpadded([53, 54]);
    assert EncodeUnpadded(b[3..]) == Quad(49, 49, 49) + EncodeUnpadded(b[6..]);
  }

  lemma PhoneQuads()
    ensures Quad(49, 52, 55) == "MTQ3" && Quad(49, 49, 49) == "MTEx" && Quad(49, 54, 51) == "MTYz"
    ensures EncodeUnpadded([53, 54]) == "NTY"
  {
  }

  lemma PhoneEncoding()
    ensures Encode(PhoneBytes) == "MTQ3MTExMTYzNTY="
  {
    PhoneGroups();
    PhoneQuads();
    assert Padding(|PhoneBytes|) == "=";
    assert "MTQ3" + "MTEx" + "MTYz" + "NTY" + "=" == "MTQ3MTExMTYzNTY=";
  }

  lemma PhoneText()
    ensures Latin1(PhoneBytes) == "14711116356"
  {
    var t := "14711116356";
    var l := Latin1(PhoneBytes);
    forall i | 0 <= i < 11
      ensures l[i] == t[i]
    {
      assert l[i] as int == PhoneBytes[i];
    }
  }

  lemma PhoneExample()
    ensures DecodeContact("MTQ3MTExMTYzNTY=") == Success("14711116356")
  {
    PhoneEncoding();
    PhoneText();
    DecodeContactStandard(PhoneBytes);
  }
}

=== FILE: decimal.dfy ===
/** Decimal notation of natural numbers, as JavaScript prints a char code. */
module Decimal {

  predicate IsDigit(c: char) {
    '0' <= c <= '9'
  }

  function DigitChar(d: nat): (c: char)
    requires d < 10
    ensures IsDigit(c) && c as int - '0' as int == d
  {
    ('0' as int + d) as char
  }

  function DigitValue(c: char): (d: nat)
    requires IsDigit(c)
    ensures d < 10 && DigitChar(d) == c
  {
    c as int - '0' as int
  }

  /** The shortest decimal numeral of `n` (no leading zeros, "0" for zero). */
  function Show(n: nat): (s: string)
    ensures |s| > 0
    ensures forall i :: 0 <= i < |s| ==> IsDigit(s[i])
    ensures |s| > 1 ==> s[0] != '0'
    decreases n
  {
    if n < 10 then [DigitChar(n)] else Show(n / 10) + [DigitChar(n % 10)]
  }

  /** The number a string of digits denotes (most significant digit first). */
  function Value(s: string): nat
    requires forall i :: 0 <= i < |s| ==> IsDigit(s[i])
    decreases |s|
  {
    if s == [] then 0 else Value(s[..|s| - 1]) * 10 + DigitValue(s[|s| - 1])
  }

  /** Reading back a printed numeral gives the number. */
  lemma {:induction false} ValueShow(n: nat)
    ensures Value(Show(n)) == n
    decreases n
  {
    if n >= 10 {
      var s := Show(n);
      assert s[..|s| - 1] == Show(n / 10);
      ValueShow(n / 10);
    }
  }

  /** The longest prefix of `s` made of digits. */
  function DigitPrefix(s: string): (p: string)
    ensures |p| <= |s| && p == s[..|p|]
    ensures forall i :: 0 <= i < |p| ==> IsDigit(p[i])
    ensures |p| < |s| ==> !IsDigit(s[|p|])
    decreases |s|
  {
    if s != [] && IsDigit(s[0]) then [s[0]] + DigitPrefix(s[1..]) else []
  }

  /** A run of digits followed by a non-digit is exactly the digit prefix. */
  lemma {:induction false} DigitPrefixStops(d: string, t: string)
    requires forall i :: 0 <= i < |d| ==> IsDigit(d[i])
    requires t != [] && !IsDigit(t[0])
    ensures DigitPrefix(d + t) == d
    decreases |d|
  {
    if d != [] {
      assert (d + t)[1..] == d[1..] + t;
      DigitPrefixStops(d[1..], t);
    } else {
      assert d + t == t;
    }
  }
}

=== FILE: emailprotection.dfy ===
/**
 * The two places security.js turns an obfuscated address back into a usable
 * one: `protectEmailAddresses` sets an element's `innerHTML` string and
 * `href`, and `createFormspreeForm` derives a form endpoint from the
 * address's local part. Elements and containers are records of the
 * attributes these routines read and write.
 */
module EmailProtection {
  import opened Results
  import opened ContactCodec
  import opened Base64

  /** The attributes `protectEmailAddresses` reads; a missing one reads as "". */
  datatype EmailAttrs = EmailAttrs(email: string, part1: string, part2: string)

  /** The element state it writes: the string assigned to `innerHTML`, before
      the browser parses it, and the `href` attribute. */
  datatype Link = Link(html: string, href: Option<string>)

  const MailtoScheme := "mailto:"

  /** The address an element's attributes carry, if any: the decoded
      `data-email` when present, otherwise `part1@part2` when both parts are. */
  function Address(a: EmailAttrs): (r: Option<string>)
    ensures a.email != "" ==> (r.Some? <==> DecodeContact(a.email).Success?)
    ensures a.email == "" ==> (r.Some? <==> a.part1 != "" && a.part2 != "")
    ensures a.email != "" && r.Some? ==> r.value == DecodeContact(a.email).value
    ensures a.email == "" && r.Some? ==> r.value == a.part1 + "@" + a.part2
  {
    if a.email != "" then
      match DecodeContact(a.email)
      case Success(d) => Some(d)
      case Failure(_) => None
    else if a.part1 != "" && a.part2 != "" then Some(a.part1 + "@" + a.part2)
    else None
  }

  /** `protectEmailAddresses`, for one element. */
  function ProtectEmail(a: EmailAttrs, el: Link): (r: Link)
    ensures Address(a).None? ==> r == el
    ensures Address(a).Some? ==> '@' !in r.html && '.' !in r.html
    ensures Address(a).Some? ==> r.href == Some(MailtoScheme + Address(a).value)
  {
    match Address(a)
    case None => el
    case Some(address) => Link(EncodeEmail(address), Some(MailtoScheme + address))
  }

  /** The `innerHTML` string, read back as text, is the address the `href` points to. */
  ghost predicate Agrees(l: Link) {
    match ParseCharRefs(l.html)
    case Some(t) => l.href == Some(MailtoScheme + t)
    case None => false
  }

  /** Whenever `protectEmailAddresses` rewrites an element, the character
      references it shows spell exactly the address its link targets. */
  lemma ProtectEmailAgrees(a: EmailAttrs, el: Link)
    requires Address(a).Some? || Agrees(el)
    ensures Agrees(ProtectEmail(a, el))
  {
    if Address(a).Some? {
      ParseEncodeEmail(Address(a).value);
    }
  }

  /** A present `data-email` wins: the parts are not consulted, even when
      `data-email` fails to decode. */
  lemma EncodedEmailTakesPrecedence(a: EmailAttrs, part1: string, part2: string, el: Link)
    requires a.email != ""
    ensures ProtectEmail(a, el) == ProtectEmail(a.(part1 := part1, part2 := part2), el)
  {
  }

  /** Without `data-email`, two non-empty parts produce the joined address. */
  lemma PartsJoined(part1: string, part2: string, el: Link)
    requires part1 != "" && part2 != ""
    ensures var r := ProtectEmail(EmailAttrs("", part1, part2), el);
      && ParseCharRefs(r.html) == Some(part1 + "@" + part2)
      && r.href == Some(MailtoScheme + part1 + "@" + part2)
  {
    var address := part1 + "@" + part2;
    assert Address(EmailAttrs("", part1, part2)) == Some(address);
    ParseEncodeEmail(address);
    assert MailtoScheme + address == MailtoScheme + part1 + "@" + part2;
  }

  // ---------------------------------------------------------------------------
  // createFormspreeForm
  // ---------------------------------------------------------------------------

  /** The text of `s` before the first `c`, or all of `s` without one. With
      `c` = '@' this is `s.split('@')[0]`; with `c` = '"' it is where the HTML
      parser ends a double-quoted attribute value. */
  function PrefixBefore(s: string, c: char): (p: string)
    ensures p <= s && c !in p
    ensures |p| == |s| || s[|p|] == c
  {
    if s == [] || s[0] == c then [] else [s[0]] + PrefixBefore(s[1..], c)
  }

  /** The properties of `PrefixBefore` determine it: it is the longest
      `c`-free prefix. */
  lemma {:induction false} PrefixBeforeUnique(s: string, c: char, p: string)
    requires p <= s && c !in p
    requires |p| == |s| || s[|p|] == c
    ensures p == PrefixBefore(s, c)
  {
    if p != [] {
      assert p[0] == s[0];
      assert p[1..] <= s[1..];
      PrefixBeforeUnique(s[1..], c, p[1..]);
    }
  }

  /** A `c`-free head is kept whole and the search goes on in the rest. */
  lemma PrefixBeforeSkip(a: string, b: string, c: char)
    requires c !in a
    ensures PrefixBefore(a + b, c) == a + PrefixBefore(b, c)
  {
    var p := PrefixBefore(b, c);
    assert (a + b)[|a|..] == b;
    assert (a + p) <= (a + b);
    PrefixBeforeUnique(a + b, c, a + p);
  }

  /** The local part of `name@domain` is `name`. */
  lemma LocalPartOfAddress(name: string, domain: string)
    requires '@' !in name
    ensures PrefixBefore(name + "@" + domain, '@') == name
  {
    var s := name + "@" + domain;
    assert s[..|name|] == name;
    PrefixBeforeUnique(s, '@', name);
  }

  const FormspreeEndpoint := "https://formspree.io/f/"
  const FormLoadFailed := "表单加载失败，请稍后再试"

  /** What `createFormspreeForm` leaves in the container. */
  datatype FormOutcome =
    | NoContainer                           // `getElementById` found nothing
    | Form(template: string, action: string) // the text spliced between the quotes
                                             // of `action="…"`, and the attribute
                                             // value the parser reads from it
    | LoadFailed(message: string)           // the failure paragraph

  /** The text the template splices between the quotes of `action="…"`: the
      endpoint followed by the address's local part. */
  function ActionText(email: string): (t: string)
    ensures |FormspreeEndpoint| <= |t| && t[..|FormspreeEndpoint|] == FormspreeEndpoint
    ensures var id := t[|FormspreeEndpoint|..];
      id <= email && '@' !in id && (|id| == |email| || email[|id|] == '@')
  {
    var t := FormspreeEndpoint + PrefixBefore(email, '@');
    assert t[|FormspreeEndpoint|..] == PrefixBefore(email, '@');
    t
  }

  /** `createFormspreeForm`. The form's `action` attribute ends at the first
      `"` of the spliced text, so it always starts with the endpoint. */
  function CreateFormspreeForm(containerExists: bool, encodedEmail: string): (r: FormOutcome)
    ensures r.NoContainer? <==> !containerExists
    ensures containerExists ==> (r.LoadFailed? <==> DecodeContact(encodedEmail).Failure?)
    ensures r.LoadFailed? ==> r.message == FormLoadFailed
    ensures r.Form? ==> r.template == ActionText(DecodeContact(encodedEmail).value)
    ensures r.Form? ==>
      && r.action <= r.template && '"' !in r.action
      && (|r.action| == |r.template| || r.template[|r.action|] == '"')
    ensures r.Form? ==> FormspreeEndpoint <= r.action
  {
    if !containerExists then NoContainer
    else
      match DecodeContact(encodedEmail)
      case Success(email) =>
        var t := ActionText(email);
        PrefixBeforeSkip(FormspreeEndpoint, PrefixBefore(email, '@'), '"');
        Form(t, PrefixBefore(t, '"'))
      case Failure(_) => LoadFailed(FormLoadFailed)
  }

  /** An address `name@domain` encoded as standard Base64 splices the endpoint
      and `name`; the form's `action` attribute text is the endpoint followed
      by `name` up to its first `"`. */
  lemma FormspreeActionOfAddress(b: seq<Byte>, name: string, domain: string)
    requires Latin1(b) == name + "@" + domain && '@' !in name
    ensures CreateFormspreeForm(true, Encode(b))
      == Form(FormspreeEndpoint + name, FormspreeEndpoint + PrefixBefore(name, '"'))
  {
    DecodeContactStandard(b);
    LocalPartOfAddress(name, domain);
    PrefixBeforeSkip(FormspreeEndpoint, name, '"');
  }

  /** A `"` in the local part closes the attribute early: the address
      `head"tail@domain` gives a form whose `action` attribute text is the
      endpoint followed by `head` alone (for `x"y@d.com`, by `x`). */
  lemma QuoteEndsAction(b: seq<Byte>, head: string, tail: string, domain: string)
    requires Latin1(b) == head + "\"" + tail + "@" + domain
    requires '"' !in head && '@' !in head + tail
    ensures CreateFormspreeForm(true, Encode(b))
      == Form(FormspreeEndpoint + head + "\"" + tail, FormspreeEndpoint + head)
  {
    var name := head + "\"" + tail;
    QuoteCutsName(head, tail);
    FormspreeActionOfAddress(b, name, domain);
    assert FormspreeEndpoint + name == FormspreeEndpoint + head + "\"" + tail;
  }

  /** `head"tail` has no `@`, and its attribute text ends after `head`. */
  lemma QuoteCutsName(head: string, tail: string)
    requires '"' !in head && '@' !in head + tail
    ensures '@' !in head + "\"" + tail
    ensures PrefixBefore(head + "\"" + tail, '"') == head
  {
    var name := head + "\"" + tail;
    assert forall i :: 0 <= i < |name| ==> name[i] == '"' || name[i] in head + tail;
    assert name == head + ("\"" + tail);
    PrefixBeforeSkip(head, "\"" + tail, '"');
  }
}

=== FILE: mobilemenu.dfy ===
/**
 * The mobile menu of script.js: the toggle button's `active` class and the
 * menu panel's `hidden` class, changed by three click handlers (the toggle
 * itself, any click on the document outside both, and the in-page anchor
 * links). Only pages that have both elements install the menu handlers.
 */
module MobileMenu {

  datatype Menu = Menu(menuHidden: bool, toggleActive: bool)

  /** The assumed starting state: the menu panel carries `hidden` and the
      toggle lacks `active`. The scripts never set this up themselves; it is
      what the page's markup is assumed to provide. */
  const Initial := Menu(true, false)

  /** The toggle shows `active` exactly when the menu is open. */
  predicate Consistent(m: Menu) {
    m.toggleActive <==> !m.menuHidden
  }

  /** The toggle's handler flips both classes. */
  function ToggleClick(m: Menu): (r: Menu)
    ensures r.menuHidden == !m.menuHidden && r.toggleActive == !m.toggleActive
    ensures Consistent(r) <==> Consistent(m)
  {
    Menu(!m.menuHidden, !m.toggleActive)
  }

  /** The document handler: a click outside toggle and menu closes an open menu. */
  function DocumentClick(m: Menu, inToggle: bool, inMenu: bool): (r: Menu)
    ensures !inToggle && !inMenu ==> r.menuHidden
    ensures inToggle || inMenu ==> r == m
    ensures Consistent(m) ==> Consistent(r)
  {
    if !inToggle && !inMenu && !m.menuHidden then Menu(true, false) else m
  }

  /** The anchor handler: when the link's target exists the page scrolls to
      it and an open menu is closed; otherwise nothing happens. */
  function AnchorClick(m: Menu, targetExists: bool): (r: Menu)
    ensures targetExists ==> r.menuHidden
    ensures !targetExists ==> r == m
    ensures Consistent(m) ==> Consistent(r)
  {
    if targetExists && !m.menuHidden then Menu(true, false) else m
  }

  /** Where a click lands, as the handlers see it. */
  datatype Target =
    | OnToggle                                 // the toggle or a child of it
    | InMenu(anchor: bool, targetExists: bool) // inside the menu panel, maybe on an anchor
    | Elsewhere(anchor: bool, targetExists: bool)
    | Stopped                                  // a revealed contact's copy button, whose
                                               // handler calls `stopPropagation`

  /** A whole click: the target's own handlers run first, then the click
      bubbles to the document handler, unless the target stopped it. */
  function Click(m: Menu, t: Target): (r: Menu)
    ensures t.Stopped? ==> r == m
    ensures t.Elsewhere? && !t.anchor ==> r.menuHidden
    ensures Consistent(m) ==> Consistent(r)
  {
    match t
    case Stopped => m
    case OnToggle => DocumentClick(ToggleClick(m), true, false)
    case InMenu(anchor, found) =>
      DocumentClick(if anchor then AnchorClick(m, found) else m, false, true)
    case Elsewhere(anchor, found) =>
      DocumentClick(if anchor then AnchorClick(m, found) else m, false, false)
  }

  function Run(m: Menu, clicks: seq<Target>): Menu
    decreases |clicks|
  {
    if clicks == [] then m else Run(Click(m, clicks[0]), clicks[1..])
  }

  /** Every sequence of clicks from the initial page keeps the two classes in step. */
  lemma {:induction false} RunConsistent(m: Menu, clicks: seq<Target>)
    requires Consistent(m)
    ensures Consistent(Run(m, clicks))
    decreases |clicks|
  {
    if clicks != [] {
      RunConsistent(Click(m, clicks[0]), clicks[1..]);
    }
  }

  /** From the assumed starting state, no click sequence breaks the invariant. */
  lemma InitialRunConsistent(clicks: seq<Target>)
    ensures Consistent(Run(Initial, clicks))
  {
    RunConsistent(Initial, clicks);
  }

  /** Two toggle clicks restore the state. */
  lemma ToggleTwice(m: Menu)
    ensures Click(Click(m, OnToggle), OnToggle) == m
  {
  }

  /** A plain click outside that reaches the document handler leaves the menu
      closed and the toggle inactive, whatever the state before. */
  lemma OutsideCloses(m: Menu)
    requires Consistent(m)
    ensures Click(m, Elsewhere(false, false)) == Menu(true, false)
  {
  }

  /** A click on the copy button never reaches the document handler, so an
      open menu stays open. */
  lemma StoppedKeepsOpen(m: Menu)
    requires Consistent(m) && !m.menuHidden
    ensures Click(m, Stopped) == Menu(false, true)
  {
  }
}

=== FILE: results.dfy ===
/** Failure-carrying wrappers shared by the contact modules. */
module Results {

  /** A value that may be absent, as a missing attribute or a failed parse. */
  datatype Option<+T> = None | Some(value: T)

  /** Either a computed value or the error the source reports instead. */
  datatype Result<+T, +E> = Success(value: T) | Failure(error: E)
}

=== FILE: reveal.dfy ===
/**
 * The click-to-reveal behaviour `initializeContactHandlers` (script.js)
 * gives every element carrying `data-email`, `data-phone`, `data-qq` or
 * `data-wechat`: a click decodes the payload into the element's text, adds
 * a copy button and (re)starts a 20-second timer whose firing puts the
 * masked text back. Timers are abstract: `setTimeout` hands out fresh ids,
 * `clearTimeout` removes one from the pending set, and a timer fires only
 * while it is pending.
 */
module RevealController {
  import opened Results
  import ContactCodec

  /** The element's `dataset`; a missing attribute reads as "" (both are falsy). */
  datatype Dataset = Dataset(email: string, phone: string, qq: string, wechat: string)

  const EmailAlert := "邮箱显示失败，请稍后再试"
  const PhoneAlert := "电话显示失败，请稍后再试"
  const QqAlert := "QQ显示失败，请稍后再试"

  /** What the click handler's attribute chain (email, phone, QQ, WeChat) settles on. */
  datatype Lookup =
    | Revealed(value: string, isEmail: bool)  // a payload decoded
    | Failed(alert: string)                   // a payload did not decode
    | WechatOnly                              // only `data-wechat`: handled elsewhere
    | NoPayload                               // every attribute empty

  /** The payload the handler decodes: the first non-empty of `data-email`,
      `data-phone`, `data-qq`, in that order ("" when all three are empty). */
  function Payload(d: Dataset): string {
    if d.email != "" then d.email else if d.phone != "" then d.phone else d.qq
  }

  function Resolve(d: Dataset): (l: Lookup)
    // a value is revealed exactly when the first payload decodes, and it is that decode
    ensures l.Revealed? <==> Payload(d) != "" && ContactCodec.DecodeContact(Payload(d)).Success?
    ensures l.Revealed? ==> ContactCodec.DecodeContact(Payload(d)) == Success(l.value)
    ensures l.Revealed? ==> (l.isEmail <==> d.email != "")
    // a failure is exactly a first payload that does not decode, with that attribute's alert
    ensures l.Failed? <==> Payload(d) != "" && ContactCodec.DecodeContact(Payload(d)).Failure?
    ensures l.Failed? && d.email != "" ==> l.alert == EmailAlert
    ensures l.Failed? && d.email == "" && d.phone != "" ==> l.alert == PhoneAlert
    ensures l.Failed? && d.email == "" && d.phone == "" ==> l.alert == QqAlert
    // `data-wechat` is consulted only when the other three are empty
    ensures l.WechatOnly? <==> Payload(d) == "" && d.wechat != ""
    ensures l.NoPayload? <==> Payload(d) == "" && d.wechat == ""
  {
    if d.email != "" then
      match ContactCodec.DecodeContact(d.email)
      case Success(v) => Revealed(v, true)
      case Failure(_) => Failed(EmailAlert)
    else if d.phone != "" then
      match ContactCodec.DecodeContact(d.phone)
      case Success(v) => Revealed(v, false)
      case Failure(_) => Failed(PhoneAlert)
    else if d.qq != "" then
      match ContactCodec.DecodeContact(d.qq)
      case Success(v) => Revealed(v, false)
      case Failure(_) => Failed(QqAlert)
    else if d.wechat != "" then WechatOnly
    else NoPayload
  }

  /** A present `data-email` decides alone: the other attributes never matter. */
  lemma EmailTakesPrecedence(d: Dataset, phone: string, qq: string, wechat: string)
    requires d.email != ""
    ensures Resolve(d) == Resolve(d.(phone := phone, qq := qq, wechat := wechat))
  {
  }

  /** Without `data-email`, a present `data-phone` decides over QQ and WeChat. */
  lemma PhoneBeforeQq(d: Dataset, qq: string, wechat: string)
    requires d.email == "" && d.phone != ""
    ensures Resolve(d) == Resolve(d.(qq := qq, wechat := wechat))
  {
  }

  /** With only `data-qq` and `data-wechat`, QQ decides. */
  lemma QqBeforeWechat(d: Dataset, wechat: string)
    requires d.email == "" && d.phone == "" && d.qq != ""
    ensures Resolve(d) == Resolve(d.(wechat := wechat))
  {
  }

  /** One contact element and the state its handler closure keeps. */
  datatype Element = Element(
    data: Dataset,
    originalText: string,       // the masked text captured at initialisation
    text: string,               // what the element shows now
    copyButton: bool,           // a `.copy-btn` child is present
    mailto: Option<string>,     // the `onclick` that navigates to `mailto:` + value
    timeoutId: Option<nat>,     // the closure's `timeoutId` variable
    pending: set<nat>,          // this element's hide timers not yet fired or cleared
    nextTimer: nat)             // the id `setTimeout` hands out next

  function Init(data: Dataset, text: string): (e: Element)
    ensures e.text == e.originalText == text && e.pending == {} && !e.copyButton
  {
    Element(data, text, text, false, None, None, {}, 1)
  }

  /** `timeoutId = setTimeout(hide, 20000)`. */
  function Schedule(e: Element): (r: Element)
    ensures r.pending == e.pending + {e.nextTimer} && r.timeoutId == Some(e.nextTimer)
    ensures r.nextTimer > e.nextTimer
    // only the timer bookkeeping changes
    ensures r == e.(pending := r.pending, timeoutId := r.timeoutId, nextTimer := r.nextTimer)
    // when every handed-out id is below `nextTimer`, the new id is fresh and that stays so
    ensures (forall id :: id in e.pending ==> id < e.nextTimer) ==>
      r.timeoutId.value !in e.pending && forall id :: id in r.pending ==> id < r.nextTimer
  {
    e.(pending := e.pending + {e.nextTimer}, timeoutId := Some(e.nextTimer), nextTimer := e.nextTimer + 1)
  }

  datatype ClickResult = ClickResult(element: Element, alert: Option<string>)

  /** The click listener. */
  function Click(e: Element): (r: ClickResult)
    ensures r.element.data == e.data && r.element.originalText == e.originalText
    ensures r.alert.Some? <==> Resolve(e.data).Failed?
    ensures Resolve(e.data).Revealed? ==> r.element.text == Resolve(e.data).value
    ensures !Resolve(e.data).Revealed? ==> r.element.text == e.text
    // a new hide timer is scheduled exactly when the handler runs to its end
    ensures r.element.nextTimer != e.nextTimer <==> Resolve(e.data).Revealed? || Resolve(e.data).NoPayload?
    ensures r.element.nextTimer != e.nextTimer ==>
      r.element.timeoutId == Some(e.nextTimer) && e.nextTimer in r.element.pending
    // the earlier timer, if any, is cleared first
    ensures e.timeoutId.Some? && e.timeoutId.value != e.nextTimer ==> e.timeoutId.value !in r.element.pending
  {
    // `if (timeoutId) clearTimeout(timeoutId)`
    var cleared := e.(pending := if e.timeoutId.Some? then e.pending - {e.timeoutId.value} else e.pending);
    match Resolve(e.data)
    case Failed(alert) => ClickResult(cleared, Some(alert))
    case WechatOnly => ClickResult(cleared, None)
    case NoPayload => ClickResult(Schedule(cleared), None)
    case Revealed(v, isEmail) =>
      // Setting `textContent` drops the old copy button; a new one is added
      // only for a non-empty value.
      var shown := cleared.(text := v, copyButton := v != "",
                            mailto := if isEmail then Some(v) else cleared.mailto);
      ClickResult(Schedule(shown), None)
  }

  /** The hide timer `id` fires (a cleared or already-fired timer never does). */
  function Fire(e: Element, id: nat): (r: Element)
    ensures id !in e.pending ==> r == e
    ensures id in e.pending ==> r.text == e.originalText && !r.copyButton
  {
    if id in e.pending then
      e.(text := e.originalText, copyButton := false,
         mailto := if e.data.email != "" then None else e.mailto,
         pending := e.pending - {id})
    else e
  }

  // ---------------------------------------------------------------------------
  // The invariant every reachable element satisfies
  // ---------------------------------------------------------------------------

  /** At most one hide timer is pending, and it is the one in `timeoutId`;
      the text is the mask or the decoded value; the copy button and the
      mailto action exist only while the decoded value is shown and its hide
      timer is pending. */
  ghost predicate Valid(e: Element) {
    && (forall id :: id in e.pending ==> e.timeoutId == Some(id))
    && (e.timeoutId.Some? ==> e.timeoutId.value < e.nextTimer)
    && (e.text == e.originalText || (Resolve(e.data).Revealed? && e.text == Resolve(e.data).value))
    && (e.copyButton ==>
          Resolve(e.data).Revealed? && e.text == Resolve(e.data).value != "" && e.pending != {})
    && (e.mailto.Some? ==>
          Resolve(e.data) == Revealed(e.mailto.value, true) && e.text == e.mailto.value && e.pending != {})
  }

  lemma InitValid(data: Dataset, text: string)
    ensures Valid(Init(data, text))
  {
  }

  lemma ClickValid(e: Element)
    requires Valid(e)
    ensures Valid(Click(e).element)
  {
  }

  lemma FireValid(e: Element, id: nat)
    requires Valid(e)
    ensures Valid(Fire(e, id))
  {
  }

  /** A valid element has at most one pending hide timer. */
  lemma AtMostOneTimer(e: Element)
    requires Valid(e)
    ensures |e.pending| <= 1
  {
    if e.pending != {} {
      assert e.pending == {e.timeoutId.value};
    }
  }

  // ---------------------------------------------------------------------------
  // What a click does
  // ---------------------------------------------------------------------------

  /** A click whose payload decodes shows the value, leaves exactly one
      pending hide timer, and that timer's firing restores the mask. */
  lemma ClickReveals(e: Element, v: string, isEmail: bool)
    requires Valid(e) && Resolve(e.data) == Revealed(v, isEmail)
    ensures var r := Click(e).element;
      && r.text == v
      && r.timeoutId.Some? && r.pending == {r.timeoutId.value}
      && (r.copyButton <==> v != "")
      && Click(e).alert == None
      && (isEmail ==> r.mailto == Some(v))
      && Fire(r, r.timeoutId.value).text == e.originalText
  {
    var r := Click(e).element;
    var cleared := if e.timeoutId.Some? then e.pending - {e.timeoutId.value} else e.pending;
    assert cleared == {} by {
      forall id | id in cleared
        ensures false
      {
      }
    }
    assert r.pending == {e.nextTimer};
  }

  /** A click whose payload fails to decode, or that finds only `data-wechat`,
      changes no text, starts no timer, and has cleared the earlier one. */
  lemma ClickStops(e: Element)
    requires Valid(e) && (Resolve(e.data).Failed? || Resolve(e.data).WechatOnly?)
    ensures var r := Click(e);
      && r.element.text == e.text
      && r.element.copyButton == e.copyButton
      && r.element.nextTimer == e.nextTimer
      && r.element.pending == {}
      && (r.alert.Some? <==> Resolve(e.data).Failed?)
  {
    var r := Click(e).element;
    assert r.pending == {} by {
      forall id | id in r.pending
        ensures false
      {
      }
    }
  }

  /** Re-clicking a revealed element keeps the value on screen (no flash of
      the mask) and the timer it replaced can no longer hide it. */
  lemma ReclickRestartsTimer(e: Element, v: string, isEmail: bool)
    requires Valid(e) && Resolve(e.data) == Revealed(v, isEmail) && e.timeoutId.Some?
    ensures var r := Click(e).element;
      && r.text == v
      && Fire(r, e.timeoutId.value) == r
  {
    ClickReveals(e, v, isEmail);
  }

  // ---------------------------------------------------------------------------
  // Runs of events
  // ---------------------------------------------------------------------------

  datatype Event = ClickEvent | TimerFires(id: nat)

  function Step(e: Element, ev: Event): Element {
    match ev
    case ClickEvent => Click(e).element
    case TimerFires(id) => Fire(e, id)
  }

  function Run(e: Element, events: seq<Event>): Element
    decreases |events|
  {
    if events == [] then e else Run(Step(e, events[0]), events[1..])
  }

  /** Whatever clicks and timer firings happen, an element never has two
      pending hide timers and never shows anything but its mask or its value. */
  lemma {:induction false} RunValid(e: Element, events: seq<Event>)
    requires Valid(e)
    ensures Valid(Run(e, events))
    ensures |Run(e, events).pending| <= 1
    ensures var r := Run(e, events);
      r.text == e.originalText || (Resolve(e.data).Revealed? && r.text == Resolve(e.data).value)
    decreases |events|
  {
    if events == [] {
      AtMostOneTimer(e);
    } else {
      var e' := Step(e, events[0]);
      match events[0] {
        case ClickEvent => ClickValid(e);
        case TimerFires(id) => FireValid(e, id);
      }
      RunValid(e', events[1..]);
    }
  }

  /** A phone element masked as "147****6356" over the payload "MTQ3MTExMTYzNTY=":
      a click shows "14711116356" and the timer puts the mask back. */
  lemma PhoneRevealExample()
    ensures var e := Init(Dataset("", "MTQ3MTExMTYzNTY=", "", ""), "147****6356");
      var r := Click(e).element;
      && r.text == "14711116356"
      && r.copyButton
      && r.pending == {1}
      && Fire(r, 1).text == "147****6356"
  {
    ContactCodec.PhoneExample();
    var e := Init(Dataset("", "MTQ3MTExMTYzNTY=", "", ""), "147****6356");
    ClickReveals(e, "14711116356", false);
  }
}

=== FILE: verificationid.dfy ===
/**
 * `generateVerificationId` (security.js): 32 characters, each picked from a
 * 62-character alphanumeric alphabet by `Math.floor(Math.random() * 62)`.
 * The randomness is a parameter: the values `Math.random` returns, in order.
 */
module VerificationId {

  const IdLength := 32

  /** The alphabet, spelled as in the source (in pieces a verifier can index). */
  const Chars: string :=
    "ABCDEFGHIJ" + "KLMNOPQRST" + "UVWXYZ" + "abcdefghij" + "klmnopqrst" + "uvwxyz" + "0123456789"

  predicate IsAlphanumeric(c: char) {
    'A' <= c <= 'Z' || 'a' <= c <= 'z' || '0' <= c <= '9'
  }

  /** The alphabet has 62 characters, and they are exactly the alphanumeric ones. */
  lemma CharsAreAlphanumeric(c: char)
    ensures |Chars| == 62
    ensures c in Chars <==> IsAlphanumeric(c)
  {
  }

  /** A value `Math.random` can return. */
  type Random = x: real | 0.0 <= x < 1.0

  /** `Math.floor(x * chars.length)`, on the exact product. JavaScript rounds
      the double product first, which for a few draws just below k/62 lands
      on k itself (0x1.2108421084210p-1, below 35/62, gives 35, not 34). */
  function Pick(x: Random): (k: nat)
    ensures k < 62 && k as real <= x * 62.0 < k as real + 1.0
  {
    (x * 62.0).Floor
  }

  function VerificationIdOf(draws: seq<Random>): (id: string)
    requires |draws| == IdLength
    ensures |id| == IdLength
    ensures forall i :: 0 <= i < IdLength ==> id[i] == Chars[Pick(draws[i])]
    ensures forall i :: 0 <= i < |id| ==> IsAlphanumeric(id[i])
  {
    forall i | 0 <= i < IdLength
      ensures IsAlphanumeric(Chars[Pick(draws[i])])
    {
      CharsAreAlphanumeric(Chars[Pick(draws[i])]);
    }
    seq(IdLength, i requires 0 <= i < IdLength => Chars[Pick(draws[i])])
  }

  /** The generator's loop, appending one character per draw. */
  method GenerateVerificationId(draws: seq<Random>) returns (id: string)
    requires |draws| == IdLength
    ensures id == VerificationIdOf(draws)
  {
    id := "";
    for i := 0 to IdLength
      invariant |id| == i
      invariant forall j :: 0 <= j < i ==> id[j] == Chars[Pick(draws[j])]
    {
      id := id + [Chars[Pick(draws[i])]];
    }
  }

  /** The identifiers are exactly the 32-character alphanumeric strings: each
      one is such a string, and every such string is one. */
  lemma IdsAreExactlyAlphanumeric(id: string)
    ensures (exists draws: seq<Random> :: |draws| == IdLength && VerificationIdOf(draws) == id)
      <==> |id| == IdLength && forall i :: 0 <= i < |id| ==> IsAlphanumeric(id[i])
  {
    if |id| == IdLength && forall i :: 0 <= i < |id| ==> IsAlphanumeric(id[i]) {
      EveryIdReachable(id);
    }
  }

  /** A draw that picks position `k`. */
  function DrawFor(k: nat): (x: Random)
    requires k < 62
    ensures Pick(x) == k
  {
    var x := k as real / 62.0;
    assert x * 62.0 == k as real;
    x
  }

  /** Every 32-character alphanumeric string is the identifier of some draws. */
  lemma EveryIdReachable(id: string)
    requires |id| == IdLength && forall i :: 0 <= i < |id| ==> IsAlphanumeric(id[i])
    ensures exists draws: seq<Random> :: |draws| == IdLength && VerificationIdOf(draws) == id
  {
    var draws: seq<Random> := seq(IdLength, i requires 0 <= i < IdLength => DrawFor(PositionOf(id[i])));
    assert VerificationIdOf(draws) == id;
  }

  /** Where an alphanumeric character sits in the alphabet. */
  function PositionOf(c: char): (k: nat)
    requires IsAlphanumeric(c)
    ensures k < |Chars| && Chars[k] == c
  {
    if c <= '9' then c as int - '0' as int + 52
    else if c <= 'Z' then c as int - 'A' as int
    else c as int - 'a' as int + 26
  }
}
